=== FILE: README.md ===
# climacell client core in Dafny

This project models the request-validation, error-classification and
response-model logic of the Go client for the ClimaCell weather API
(package `climacell`). It covers these parts:

- the closed catalogs of queryable fields (44 of them) and of unit systems,
  with their wire names;
- the coordinate checks, and the per-endpoint field eligibility filter shared
  by the realtime and nowcast validators, modelled as written: a nested loop
  that keeps the caller's order and duplicates;
- the two validators, with their order of checks and their single error;
- the query each endpoint sends: the `fields` list, the units, the time step
  and the nowcast `start_time`/`end_time` values;
- `checkHTTPError`, which maps a status and a decoded `{message}` body to one
  of seven HTTP error types, and the fixed rendering of every error;
- the response model: layers of independently optional scalar wrappers
  (`FloatData`, `IntData`, `StringData`, `TimeData`), their `String()`
  renderings, and the `TimeData` decoding rule;
- `NewClient`, `makeRequest` and `doRequest`, and the control flow of
  `Realtime` and `Nowcast` from arguments to result. Go's `doRequest` has
  no caller: both endpoints repeat its send, status check and body steps
  inline, and the model states that shared exchange once, as `DoRequest`.

Modules follow the Go files:

- `Fields` and `FieldTable` for fields.go;
- `Units` for units.go;
- `Errors` for errors.go;
- `Util` for util.go;
- `Eligibility` for the loop that realtime.go and nowcast.go share;
- `Structures` for structures.go;
- `Requests` for client.go;
- `RealtimeApi` for realtime.go;
- `NowcastApi` for nowcast.go.

Helper modules:

- `Wrappers` holds `Option` and `Result`.
- `Text` holds `strings.Join` and `strings.Split`, and the decimal rendering of integers.
- `Times` holds instants.

The library behaviour the client calls into is given as function-valued
fields of `Requests.Env`. Each is an arbitrary function, so every property
holds whatever that library does, with four exceptions that assume one
library fact each and hold only under it:
`Structures.AbsentRendersAsZero` assumes `%g` of 0 is `0`;
`NowcastApi.SuppliedTimesDiscarded` assumes the RFC 3339 text of the time is
nonempty; `Structures.TimeDataRoundTrip` and
`NowcastApi.IntendedTimesReadBack` assume that parsing the RFC 3339 text of
an instant gives that instant back.
The library functions are:

- `resolve` is `getURL`, i.e. URL parsing and reference resolution;
- `formatFloat` is `%g`;
- `formatTime` is RFC 3339 formatting;
- `send` is `httpClient.Do`;
- the three `decode*` fields are JSON decoding.

`Realtime` and `Nowcast` also return the request they handed to the
transport, so their contracts can state two things: what is sent, and that
nothing is sent when validation fails.

`RealtimeData` carries a Fire layer and no Insurance layer. Each
`NowcastData` step carries the `ApiResponse` envelope and an Insurance layer
and no Fire layer. Go's nil pointers are `Option`s. The pollen groups, the
Road layer and the observation time are plain values, as in Go.

`Realtime` sets `fields` even when no field is supplied (realtime.go:35), so
an empty field list sends an empty `fields` value.

## Model

| member | source | states |
|---|---|---|
| Fields.Ordinal | fields.go:5-61 | every field's `iota` position is below 44, the number of constants |
| Fields.WireName | fields.go:110-113 | every field has a nonempty wire name; `FieldTable.WireNameIsTableEntry` shows it is the table entry at the field's position |
| FieldTable.WireNameIsTableEntry | fields.go:111-113 | the table has exactly 44 entries, the ordinal of every field indexes inside it, and the match-based wire name is the table entry at that position |
| FieldTable.OrdinalInjective | fields.go:5-61 | distinct fields have distinct ordinals, so each gets its own table entry |
| Fields.WireNameRoundTrip | fields.go:63-108 | reading a field's wire name back gives that field |
| Fields.WireNameInjective | fields.go:63-108 | the 44 wire names are pairwise distinct, so a wire name identifies its field |
| Fields.WireNameNoComma | fields.go:63-108 | no wire name contains a comma, so a comma-joined list can be split apart again |
| Fields.KnownWireNames | fields.go:64-107 | Temperature is `temp`, HailBinary is `hail_binary`, DewPoint is `dewpoint` (no underscore), Ozone is `o3`, HealthConcertChinaMEP is `china_health_concern` |
| Units.Ordinal | units.go:5-8 | each of the two units has a position inside the two-entry table |
| Units.WireName | units.go:11-13 | a unit renders as the table entry at its position |
| Units.WireNames | units.go:5-13 | Si renders as `si`, Us as `us`, and the rendering tells the two apart |
| Util.ValidLatitude | util.go:11-13 | a latitude is accepted exactly when its absolute value is at most 59.9, so the band is symmetric and closed |
| Util.ValidLongitude | util.go:15-17 | a longitude is accepted exactly when its absolute value is at most 180 |
| Util.CoordinateBounds | util.go:11-17 | -59.9, 59.9 and 0 are valid latitudes and -180 and 180 valid longitudes. -59.91, 59.91 and ±90 are rejected as latitudes, and ±180.01 as longitudes |
| Util.WireNames | util.go:42-44 | the names list has one entry per field, in the caller's order |
| Util.JoinFields | util.go:39-47 | empty list gives ""; one field gives its bare name; with two or more, the first name is followed by the separator, and the last name ends the text; the separators between all neighbours follow from `Util.JoinFieldsAppend` |
| Util.JoinFieldsAppend | util.go:39-47 | for any separator, joining two nonempty field lists is joining each with the separator between them, so every pair of neighbouring names is separated by exactly the separator (the `", "` of realtime.go:89 and nowcast.go:111 included) |
| Util.JoinFieldsExample | util_test.go:183-188 | `[Temperature, CloudCeiling]` joined with `", "` is `temp, cloud_ceiling` |
| Util.JoinFieldsSplits | util.go:39-47 | splitting the comma-joined list on commas gives back the wire names, in order and with duplicates |
| Util.JoinFieldsInjective | util.go:39-47 | the comma-joined list determines the field list, including its order, duplicates and length |
| Text.Join | util.go:46 | `strings.Join`: empty gives "", a single part is returned as is, the first part leads and is followed by the separator, the last part ends the text; the separators between all neighbours follow from `Text.JoinAppend` |
| Text.JoinAppend | util.go:46 | for any separator, not only one-character ones, joining a concatenation of two nonempty lists is joining each with the separator between them |
| Text.SplitJoin | util.go:46 | splitting undoes joining when no part contains the separator |
| Text.DecimalString | structures.go:177-182 | `%v` of an int: digits only for a non-negative value, a minus sign and then digits for a negative one, and no leading zero except for 0 itself |
| Text.DecimalRoundTrip | structures.go:182 | the `%v` rendering of an integer reads back as that integer |
| Util.GoDiv | util.go:62 | Go's integer quotient: the remainder is non-negative and below the divisor for a non-negative dividend, and non-positive and above minus the divisor for a negative one, i.e. truncation toward zero |
| Util.GoDivTruncates | util.go:62 | on -450 / 100 truncation gives -4 where Euclidean division gives -5; on non-negative operands the two agree |
| Util.CheckHttpError | util.go:49-95 | no error iff status is 200. Otherwise a body that fails to decode yields that decode error unchanged, before classification. A decoded body yields an HTTP error carrying the message. Its type is specific exactly for 400/401/403/404/429/500, each with its own status and the given endpoint. Every other status yields the generic error with an empty endpoint |
| Util.ClassifiedStatuses | util.go:62-95 | 400, 401, 403, 404, 429 and 500 map to BadRequest, Unauthorized, Forbidden, NotFound, TooManyRequests and InternalServer; 503 and 302 map to the generic error with an empty endpoint |
| Errors.KindPhrase | errors.go:22-84 | every error type has a nonempty leading phrase |
| Errors.HttpError.Render | errors.go:22-84 | the rendering starts with the kind phrase, a space, the endpoint and `: `, ends with the remote message, and has nothing else in between |
| Errors.Message | errors.go:8-84 | the client's own errors have nonempty messages. An HTTP error's message is its rendering: kind phrase and endpoint first, remote message last. Decode, URL, transport and time-parse errors pass their reason through |
| Errors.Renderings | errors.go:22-84 | each of the seven types renders as its phrase, a space, the endpoint, `: `, and the message |
| Errors.RenderDeterminesError | errors.go:22-84 | with the endpoint known, a rendering identifies the error's type and message |
| Errors.SentinelMessages | errors.go:8-13 | the four sentinel errors have their fixed messages |
| Errors.TimeRangeMessage | nowcast.go:103-107 | the inverted-range error reads `startTime must be before endTime` |
| Eligibility.Offending | realtime.go:78-86 | the offending list is no longer than the input, holds only ineligible fields, and keeps every ineligible field exactly as often as the caller supplied it and no other field |
| Eligibility.OffendingAppend | realtime.go:80-86 | filtering commutes with concatenation, so the caller's order is kept |
| Eligibility.OffendingEmpty | realtime.go:88 | the offending list is empty iff no supplied field is ineligible |
| Eligibility.Matches | realtime.go:81-85 | the matches of one supplied field are that field, once per occurrence in the ineligible list |
| Eligibility.Collected | realtime.go:78-86 | the nested loop only ever collects fields that were supplied and are ineligible |
| Eligibility.CollectedCounts | realtime.go:80-86 | what the nested loop collects holds each field (times supplied) × (times listed) times |
| Eligibility.CollectedWithoutDuplicates | realtime.go:80-86 | against a duplicate-free ineligible list, what the nested loop collects is exactly the order-preserving filter |
| Eligibility.MatchesOf | realtime.go:81-85 | the inner loop appends the supplied field once per occurrence in the ineligible list |
| Eligibility.CollectOffending | nowcast.go:92-100 | the nested loop keeps each field (times supplied) × (times listed); for a duplicate-free list this is exactly the order-preserving filter |
| Eligibility.InvalidFieldsError | realtime.go:88-91 | a BadRequest on the given endpoint whose message is `invalid fields provided (` + names joined by `, ` + `)` |
| Eligibility.InvalidFieldsMessage | errors.go:32-34 | that error renders as `bad request <endpoint>: invalid fields provided (<names>)` |
| Structures.FloatString | structures.go:162-168 | the rendering ends with one space and the units; before them is the `%g` text of the value, or `0` when absent |
| Structures.IntString | structures.go:177-183 | the rendering ends with one space and the units, even when the units are empty |
| Structures.IntStringReadsBack | structures.go:177-183 | the text before the first space reads back as the value (0 when absent), and the text after it is the units |
| Structures.AbsentRendersAsZero | structures.go:162-183 | an absent value renders exactly like a present zero |
| Structures.RenderingExamples | structures.go:162-183 | `13 cm`, `-7 `, `0 cm` and `0 ` for present, negative, absent and unit-less values |
| Structures.StringString | structures.go:191-197 | the value itself when present, "" when absent |
| Structures.DecodeTimeData | structures.go:206-225 | a JSON error is returned as is. A value that is not RFC 3339 is an error, never a silently absent time. On success the wrapper holds exactly the parsed instant |
| Structures.TimeDataRoundTrip | structures.go:217-224 | decoding the RFC 3339 text of an instant gives that instant back whenever parsing undoes formatting |
| Structures.ResponseKeyMismatches | structures.go:44-112 | the response keys differ from the requested wire names exactly for dew point and ozone; ozone is read under `03` while it is requested as `o3` |
| Structures.ResponseKeyIntendedMatches | structures.go:74 | with the ozone key spelled `o3`, ozone is read under its wire name and dew point is the one remaining difference |
| Requests.NewClient | client.go:26-49 | the base URL is checked before the key; a client exists iff both are nonempty and holds them unchanged |
| Requests.SetAll | client.go:58-63 | setting the parameters one by one, in any order, gives the URL's query overridden by the parameters |
| Requests.MakeRequest | client.go:51-73 | fails iff resolving the endpoint fails. Otherwise it is a GET on the resolved address, the parameters are merged into the query, and the `apikey` header holds the client's key |
| Requests.DoRequest | client.go:75-96 | a transport failure is returned as is. A non-200 status gives the classified error. Only a 200 response yields its body |
| RealtimeApi.RealtimeUnavailableMembers | realtime.go:10-15 | the realtime ineligible list is exactly {PrecipitationProbability, PrecipitationAccumulation, CloudSatellite, WeatherGroups}, each once |
| RealtimeApi.RealtimeArgsValidIff | realtime.go:69-94 | arguments pass validation iff both coordinates are in range and no supplied field is one of the four ineligible ones |
| RealtimeApi.ValidateRealtimeArgs | realtime.go:69-94 | latitude error first, whatever the rest is. Then the longitude error, whatever the fields are. Then BadRequest on `/v3/weather/realtime` listing the offending fields in order with duplicates. No error iff the arguments are valid |
| RealtimeApi.RealtimeQuery | realtime.go:31-36 | the query keeps the URL's own parameters and adds exactly `lat`, `lon`, `unit_system` and `fields`, the last one even when no field is asked for |
| RealtimeApi.RealtimeQueryReadsBack | realtime.go:31-36 | the coordinates are sent as `%g` renders them. `unit_system` names the requested unit. `fields` splits back into the requested wire names, or is empty |
| RealtimeApi.Realtime | realtime.go:18-67 | a validation error is returned before any request exists, so the result does not depend on the environment. A URL error comes before sending. The request sent is a GET with the query above and the key header. Transport, status and decoding errors are returned as is; otherwise the result is the decoded body |
| NowcastApi.NowcastUnavailableMembers | nowcast.go:11-18 | the nowcast ineligible list is exactly {PrecipitationProbability, PrecipitationAccumulation, CloudSatellite, MoonPhase, WeatherGroups, FireIndex}, each once |
| NowcastApi.NowcastArgsValidIff | nowcast.go:83-116 | arguments pass validation iff the coordinates are in range, the start is not a strictly later instant than the end (so equal instants pass), and no supplied field is one of the six ineligible ones |
| NowcastApi.ValidateNowcastArgs | nowcast.go:83-116 | the checks run in order: latitude, longitude, time range, fields. An inverted range beats offending fields. No error iff the arguments are valid |
| NowcastApi.NowcastTimeStrings | nowcast.go:29-42 | as written: `start_time` is `now` iff no start is given and "" otherwise; `end_time` is always "" |
| NowcastApi.SuppliedTimesDiscarded | nowcast.go:32-42 | as written, a supplied start or end is never sent: the value is "" whatever instant was given |
| NowcastApi.NowcastTimeStringsIntended | nowcast.go:29-42 | `now` / "" when a time is missing, the RFC 3339 text of the time when supplied |
| NowcastApi.IntendedTimesReadBack | nowcast.go:32-42 | with the text kept, parsing each sent value gives back the instant the caller supplied whenever parsing undoes formatting, i.e. for whole-second instants (`time.RFC3339` writes no fractional seconds) |
| NowcastApi.NowcastParameters | nowcast.go:44-52 | exactly the seven keys `lat`, `lon`, `unit_system`, `timestep`, `start_time`, `end_time`, `fields` |
| NowcastApi.NowcastParameterValues | nowcast.go:44-52 | the coordinates are sent as `%g` renders them, the unit as its wire name, and the two time values as given |
| NowcastApi.NowcastParametersReadBack | nowcast.go:44-52 | `timestep` reads back as the caller's integer, and `fields` splits back into the requested wire names, or is empty |
| NowcastApi.Nowcast | nowcast.go:20-81 | errors come in this order, each returned before any request: latitude, longitude, time range, fields. A URL error comes before sending. The request sent is a GET whose query is the URL's own merged with the seven parameters (times as corrected under Findings), with the key header. Transport, status and decoding errors are returned as is; otherwise the result is the decoded steps |
| NowcastApi.SendNowcast | nowcast.go:54-80 | a request is sent iff the endpoint resolves; otherwise the URL error. The request is a GET on the resolved address with the URL's query overridden by the parameters and the key header. Transport and status errors are returned as is, and a 200 body is decoded into the steps |

## Left out

- `BaseURL` is a package variable set in `init`; `NewClient` takes it as a parameter instead.
- The optional `*http.Client` argument of `NewClient` and its 15-second default timeout are left out, because the transport is `Env.send`.
- `getURL` (URL parsing and reference resolution) is the abstract `Env.resolve`. The encoded URL string is left out: the request holds the resolved address and the query as a map, before percent-encoding.
- `floatToString` and `%g` of a present float are the abstract `Env.formatFloat`.
- Latitude and longitude are exact reals, so `float64` rounding of the bounds is not modelled.
- Exact reals also have no NaN or ±Inf. In Go `validLatitude(NaN)` is false, so NaN yields `ErrInvalidLatitude` (and likewise for longitude); that input does not exist in the model.
- `Field` and `Unit` are closed datatypes, so the out-of-range `field`/`unit` integers whose `String()` panics on the table index are not modelled.
- `time.Parse` and `Time.Format` with the RFC 3339 layout are abstract parameters. A `Time` is an instant in nanoseconds plus a zone offset. `After` compares instants, as Go does.
- `TimeData.MarshalJSON` is left out: it serialises for the caller and plays no part in requests or validation.
- JSON decoding of the response bodies (`encoding/json`) is abstract. The result shapes are datatypes with `Option` members; the decoder's own errors arrive as text.
- `http.NewRequest` is treated as never failing, because its inputs are a fixed method and an already-parsed URL.
- Reading the response body (`ioutil.ReadAll`) is treated as never failing, and closing the body is left out; both are I/O.
- The header name is modelled as `apikey`; Go stores it canonicalised as `Apikey`, and HTTP header names are case-insensitive.
- The six Go error types that embed `HTTPError` are one datatype with a kind. Go callers distinguish them by dynamic type; here they are distinguished by the kind.
- `Errors.Message` passes decode, URL and transport errors through as text, so their own error types are not modelled.
- The `PollenData` value, the Road layer and the weather groups are carried unchanged; they have no rendering in the source.
- NowcastApi.IntendedTimesReadBack: holds only for instants that RFC 3339 parsing reads back from their formatted text. `time.RFC3339` writes no fractional seconds, so a supplied time with a sub-second part (nowcast_test.go:146 uses 176 ns) is sent truncated to the second and does not read back exactly.
- NowcastApi.Nowcast: the request it sends carries the corrected `start_time`/`end_time` (`NowcastTimeStringsIntended`, the RFC 3339 text of a supplied time), not the "" that the source as written sends for a supplied time; the as-written values are `NowcastTimeStrings`, and the first Findings row records the difference.
- `NowcastResponse` is left out: it is declared but never used by the client, which decodes a bare list of steps.
- The example program and the test helpers are not part of this model.

## Findings

| source | as written | input that shows it | evidently intended | confidence | as-written member | corrected member |
|---|---|---|---|---|---|---|
| nowcast.go:32-42 | `startTime.Format(time.RFC3339)` and `endTime.Format(time.RFC3339)` are evaluated and their results dropped, so `start_time` stays "" and `end_time` stays "" for a supplied time | any supplied start, e.g. 2020-06-01T10:00:00Z, is sent as `start_time=` | send the RFC 3339 text of a supplied time | high, not executed | NowcastApi.SuppliedTimesDiscarded | NowcastApi.IntendedTimesReadBack |
| structures.go:74 | the `Ozone` member is tagged `json:"03"` (digit zero) while the field is requested as `o3` | a response containing `"o3": {"value": 12.5}` leaves `Ozone` absent | tag `json:"o3"`, matching the wire name | medium, not executed | Structures.ResponseKeyMismatches | Structures.ResponseKeyIntendedMatches |

`Nowcast` sends the corrected time values (`NowcastTimeStringsIntended`).
The response keys are not used elsewhere in the model, because decoding is
abstract. Dew point is also read under a different key (`dew_point`) from
the one it is requested by (`dewpoint`). That is not claimed as a defect:
the service's response naming is not visible here.

=== FILE: client.dfy ===
/** Client construction, request building and the request/response exchange
    (client.go). The network, URL resolution, `%g` formatting, RFC 3339
    formatting and JSON decoding are the environment's: they reach the model
    as the function-valued fields of `Env`. */
module Requests {
  import opened Wrappers
  import opened Times
  import opened Errors
  import opened Util
  import opened Structures

  /** The configured client: base URL and API key, both nonempty once built.
      The underlying `http.Client` is part of `Env`. */
  datatype Client = Client(baseURL: string, apiKey: string)

  /** A resolved URL: everything but the query, and the query's parameters. */
  datatype Location = Location(address: string, query: map<string, string>)

  /** An outgoing request: method, URL (address and query) and headers. */
  datatype Request = Request(verb: string, address: string, query: map<string, string>, header: map<string, string>)

  /** A response as the client sees it: the status code and the body bytes. */
  datatype Response = Response(status: int, body: seq<bv8>)

  /** The library behaviour the client relies on.
      - `resolve(base, endpoint)` is `getURL`: parse both, resolve the
        endpoint against the base; the error text on failure.
      - `formatFloat` is `%g` (also what `%v` does with a `float64`).
      - `formatTime` is `Time.Format(time.RFC3339)`.
      - `send` is `httpClient.Do`, with the transport's error text on failure.
      - `decodeMessage`, `decodeRealtime` and `decodeNowcast` are
        `encoding/json` decoding of an error body, a realtime body and a
        nowcast body. */
  datatype Env = Env(
    resolve: (string, string) -> Result<Location, string>,
    formatFloat: real -> string,
    formatTime: Time -> string,
    send: Request -> Result<Response, string>,
    decodeMessage: seq<bv8> -> Result<string, string>,
    decodeRealtime: seq<bv8> -> Result<RealtimeData, string>,
    decodeNowcast: seq<bv8> -> Result<seq<NowcastData>, string>)

  /** The request header carrying the API key. */
  const ApiKeyHeader := "apikey"

  /** `NewClient`: the base URL is checked before the API key, and a client
      is built only when both are nonempty, holding them unchanged. */
  function NewClient(baseURL: string, apiKey: string): (r: Result<Client, Error>)
    ensures r.Success? <==> baseURL != "" && apiKey != ""
    ensures baseURL == "" ==> r == Failure(InvalidBaseURL)
    ensures baseURL != "" && apiKey == "" ==> r == Failure(InvalidAPIKey)
    ensures r.Success? ==> r.value.baseURL == baseURL && r.value.apiKey == apiKey
  {
    if baseURL == "" then Failure(InvalidBaseURL)
    else if apiKey == "" then Failure(InvalidAPIKey)
    else Success(Client(baseURL, apiKey))
  }

  /** The loop `for key, value := range parameters { q.Set(key, value) }`.
      Go visits the map in an unspecified order; whichever order the loop
      takes, every parameter ends up set, overriding a query value of the
      same name, and every other query value stays. */
  method SetAll(q0: map<string, string>, parameters: map<string, string>) returns (q: map<string, string>)
    ensures q == q0 + parameters
  {
    q := q0;
    var pending := parameters.Keys;
    while pending != {}
      invariant pending <= parameters.Keys
      invariant q.Keys == q0.Keys + (parameters.Keys - pending)
      invariant forall k :: k in q ==> q[k] == if k in parameters && k !in pending then parameters[k] else q0[k]
      decreases pending
    {
      var key :| key in pending;
      q := q[key := parameters[key]];
      pending := pending - {key};
    }
  }

  /** `makeRequest`: fails exactly when resolving the endpoint fails;
      otherwise a GET on the resolved URL, the parameters set into its
      query, and the client's key in the `apikey` header. The parameter
      values arrive already rendered as `%v` renders them. */
  method MakeRequest(c: Client, endpoint: string, parameters: map<string, string>, env: Env) returns (r: Result<Request, Error>)
    ensures r.Failure? <==> env.resolve(c.baseURL, endpoint).Failure?
    ensures r.Failure? ==> r.error == Url(env.resolve(c.baseURL, endpoint).error)
    ensures r.Success? ==>
      var u := env.resolve(c.baseURL, endpoint).value;
      && r.value.verb == "GET"
      && r.value.address == u.address
      && r.value.query == u.query + parameters
      && r.value.header == map[ApiKeyHeader := c.apiKey]
  {
    match env.resolve(c.baseURL, endpoint)
    case Failure(err) =>
      r := Failure(Url(err));
    case Success(u) =>
      var q := SetAll(u.query, parameters);
      r := Success(Request("GET", u.address, q, map[ApiKeyHeader := c.apiKey]));
  }

  /** `doRequest`: send the request, classify the status, hand back the
      body. A transport failure and a non-200 status are errors; only a 200
      response yields its body. Go's `doRequest` has no caller; `Realtime`
      and `Nowcast` repeat these steps inline, and the model uses this one
      definition for both. */
  function DoRequest(req: Request, endpoint: string, env: Env): (r: Result<seq<bv8>, Error>)
    ensures env.send(req).Failure? ==> r == Failure(Transport(env.send(req).error))
    ensures r.Success? <==> env.send(req).Success? && env.send(req).value.status == 200
    ensures r.Success? ==> r.value == env.send(req).value.body
    ensures env.send(req).Success? && env.send(req).value.status != 200 ==>
      var resp := env.send(req).value;
      r == Failure(CheckHttpError(resp.status, env.decodeMessage(resp.body), endpoint).value)
  {
    match env.send(req)
    case Failure(err) => Failure(Transport(err))
    case Success(resp) =>
      match CheckHttpError(resp.status, env.decodeMessage(resp.body), endpoint)
      case Some(err) => Failure(err)
      case None => Success(resp.body)
  }

  /** A JSON decoder's outcome, its error text kept as a decode error. */
  function Decoded<T>(d: Result<T, string>): (r: Result<T, Error>)
    ensures r.Success? <==> d.Success?
    ensures d.Success? ==> r.value == d.value
    ensures d.Failure? ==> r.error == Decode(d.error)
  {
    match d
    case Failure(err) => Failure(Decode(err))
    case Success(v) => Success(v)
  }
}

=== FILE: eligibility.dfy ===
/** Per-endpoint field eligibility, shared by the realtime and nowcast
    validators (realtime.go and nowcast.go each carry a copy of this loop). */
module Eligibility {
  import opened Fields
  import opened Errors
  import opened Util

  /** No element occurs twice. */
  predicate NoDuplicates(s: seq<Field>) {
    forall i, j :: 0 <= i < j < |s| ==> s[i] != s[j]
  }

  /** The caller's fields that are in `unavailable`, in the caller's order
      and with the caller's duplicates. */
  function Offending(fields: seq<Field>, unavailable: seq<Field>): (r: seq<Field>)
    ensures |r| <= |fields|
    ensures forall i :: 0 <= i < |r| ==> r[i] in unavailable
    ensures forall x :: x in unavailable ==> multiset(r)[x] == multiset(fields)[x]
    ensures forall x :: x !in unavailable ==> multiset(r)[x] == 0
    decreases |fields|
  {
    if |fields| == 0 then []
    else
      var init := fields[..|fields| - 1];
      var last := fields[|fields| - 1];
      assert fields == init + [last];
      var r := Offending(init, unavailable);
      if last in unavailable then r + [last] else r
  }

  /** Filtering commutes with concatenation: the offending list keeps the
      relative order of the caller's fields. */
  lemma {:induction false} OffendingAppend(a: seq<Field>, b: seq<Field>, unavailable: seq<Field>)
    ensures Offending(a + b, unavailable) == Offending(a, unavailable) + Offending(b, unavailable)
    decreases |b|
  {
    if |b| > 0 {
      var b' := b[..|b| - 1];
      var last := b[|b| - 1];
      assert a + b == (a + b') + [last];
      assert (a + b)[..|a + b| - 1] == a + b';
      assert b[..|b| - 1] == b';
      OffendingAppend(a, b', unavailable);
    } else {
      assert a + b == a;
    }
  }

  /** Nothing offends exactly when no supplied field is unavailable. */
  lemma OffendingEmpty(fields: seq<Field>, unavailable: seq<Field>)
    ensures Offending(fields, unavailable) == [] <==> forall i :: 0 <= i < |fields| ==> fields[i] !in unavailable
  {
    var r := Offending(fields, unavailable);
    if r != [] {
      assert r[0] in unavailable;
      assert multiset(r)[r[0]] > 0;
      assert r[0] in multiset(fields);
    } else {
      forall i | 0 <= i < |fields|
        ensures fields[i] !in unavailable
      {
        assert fields[i] in multiset(fields);
      }
    }
  }

  /** The same, with the unavailable list given by its set of members. */
  lemma OffendingEmptyIn(fields: seq<Field>, unavailable: seq<Field>, members: set<Field>)
    requires forall x :: x in unavailable <==> x in members
    ensures Offending(fields, unavailable) == [] <==> forall i :: 0 <= i < |fields| ==> fields[i] !in members
  {
    OffendingEmpty(fields, unavailable);
  }

  /** A duplicate-free list holds each value at most once. */
  lemma {:induction false} NoDuplicatesCount(s: seq<Field>, x: Field)
    requires NoDuplicates(s)
    ensures multiset(s)[x] <= 1
    decreases |s|
  {
    if |s| > 0 {
      var init := s[..|s| - 1];
      assert s == init + [s[|s| - 1]];
      NoDuplicatesCount(init, x);
      if x == s[|s| - 1] {
        assert x !in init;
      }
    }
  }

  /** A list holding only `p` holds it once per element. */
  lemma {:induction false} ConstantCount(s: seq<Field>, p: Field, x: Field)
    requires forall k :: 0 <= k < |s| ==> s[k] == p
    ensures multiset(s)[x] == if x == p then |s| else 0
    decreases |s|
  {
    if |s| > 0 {
      var init := s[..|s| - 1];
      assert s == init + [s[|s| - 1]];
      ConstantCount(init, p, x);
    }
  }

  /** One round of the outer loop keeps the count law of `CollectOffending`
      for one value `x`. */
  lemma CollectStepAt(done: seq<Field>, provided: Field, invalid: seq<Field>, hits: seq<Field>, unavailable: seq<Field>, x: Field)
    requires multiset(invalid)[x] == multiset(done)[x] * multiset(unavailable)[x]
    requires forall k :: 0 <= k < |hits| ==> hits[k] == provided
    requires |hits| == multiset(unavailable)[provided]
    ensures multiset(invalid + hits)[x] == multiset(done + [provided])[x] * multiset(unavailable)[x]
  {
    ConstantCount(hits, provided, x);
    var before, listed := multiset(done)[x], multiset(unavailable)[x];
    if x == provided {
      assert (before + 1) * listed == before * listed + listed;
    }
  }

  /** One round of the outer loop keeps the count law for every value. */
  lemma CollectStep(done: seq<Field>, provided: Field, invalid: seq<Field>, hits: seq<Field>, unavailable: seq<Field>)
    requires forall x :: multiset(invalid)[x] == multiset(done)[x] * multiset(unavailable)[x]
    requires forall k :: 0 <= k < |hits| ==> hits[k] == provided
    requires |hits| == multiset(unavailable)[provided]
    ensures forall x :: multiset(invalid + hits)[x] == multiset(done + [provided])[x] * multiset(unavailable)[x]
  {
    forall x
      ensures multiset(invalid + hits)[x] == multiset(done + [provided])[x] * multiset(unavailable)[x]
    {
      CollectStepAt(done, provided, invalid, hits, unavailable, x);
    }
  }

  /** Supplying one more field extends the offending list by that field
      exactly when it is unavailable. */
  lemma OffendingStep(done: seq<Field>, provided: Field, unavailable: seq<Field>)
    ensures Offending(done + [provided], unavailable)
         == Offending(done, unavailable) + if provided in unavailable then [provided] else []
  {
    assert (done + [provided])[..|done|] == done;
  }

  /** Against a duplicate-free list, the matches of one field are that field
      once if it is listed and nothing otherwise. */
  lemma HitsWithoutDuplicates(hits: seq<Field>, provided: Field, unavailable: seq<Field>)
    requires NoDuplicates(unavailable)
    requires forall k :: 0 <= k < |hits| ==> hits[k] == provided
    requires |hits| == multiset(unavailable)[provided]
    ensures hits == if provided in unavailable then [provided] else []
  {
    NoDuplicatesCount(unavailable, provided);
  }

  /** The matches of one supplied field in the unavailable list: the field
      once per occurrence, in scanning order. */
  function Matches(provided: Field, unavailable: seq<Field>): (hits: seq<Field>)
    ensures forall k :: 0 <= k < |hits| ==> hits[k] == provided
    ensures |hits| == multiset(unavailable)[provided]
    decreases |unavailable|
  {
    if |unavailable| == 0 then []
    else
      var init := unavailable[..|unavailable| - 1];
      var last := unavailable[|unavailable| - 1];
      assert unavailable == init + [last];
      Matches(provided, init) + if provided == last then [provided] else []
  }

  /** What the nested loop collects: the matches of each supplied field, in
      the caller's order. */
  function Collected(fields: seq<Field>, unavailable: seq<Field>): (r: seq<Field>)
    ensures forall k :: 0 <= k < |r| ==> r[k] in fields && r[k] in unavailable
    decreases |fields|
  {
    if |fields| == 0 then []
    else Collected(fields[..|fields| - 1], unavailable) + Matches(fields[|fields| - 1], unavailable)
  }

  /** Each field is collected (times supplied) x (times listed) times. */
  lemma {:induction false} CollectedCounts(fields: seq<Field>, unavailable: seq<Field>)
    ensures forall x :: multiset(Collected(fields, unavailable))[x] == multiset(fields)[x] * multiset(unavailable)[x]
    decreases |fields|
  {
    if |fields| > 0 {
      var init := fields[..|fields| - 1];
      var last := fields[|fields| - 1];
      assert fields == init + [last];
      CollectedCounts(init, unavailable);
      CollectStep(init, last, Collected(init, unavailable), Matches(last, unavailable), unavailable);
    }
  }

  /** Against a duplicate-free list, collecting is filtering. */
  lemma {:induction false} CollectedWithoutDuplicates(fields: seq<Field>, unavailable: seq<Field>)
    requires NoDuplicates(unavailable)
    ensures Collected(fields, unavailable) == Offending(fields, unavailable)
    decreases |fields|
  {
    if |fields| > 0 {
      var init := fields[..|fields| - 1];
      var last := fields[|fields| - 1];
      assert fields == init + [last];
      CollectedWithoutDuplicates(init, unavailable);
      OffendingStep(init, last, unavailable);
      HitsWithoutDuplicates(Matches(last, unavailable), last, unavailable);
    }
  }

  /** The inner loop of the validators: scanning the unavailable list for
      one supplied field appends that field once per match. */
  method MatchesOf(provided: Field, unavailable: seq<Field>) returns (hits: seq<Field>)
    ensures hits == Matches(provided, unavailable)
    ensures forall k :: 0 <= k < |hits| ==> hits[k] == provided
    ensures |hits| == multiset(unavailable)[provided]
  {
    hits := [];
    var j := 0;
    while j < |unavailable|
      invariant 0 <= j <= |unavailable|
      invariant hits == Matches(provided, unavailable[..j])
    {
      assert unavailable[..j + 1][..j] == unavailable[..j];
      if provided == unavailable[j] {
        hits := hits + [provided];
      }
      j := j + 1;
    }
    assert unavailable[..j] == unavailable;
  }

  /** The validators' nested loop: for each supplied field, in order, the
      matches found in the unavailable list are appended. Each field is kept
      as often as it was supplied times as often as it is listed; with a
      duplicate-free unavailable list this is exactly `Offending`. */
  method CollectOffending(fields: seq<Field>, unavailable: seq<Field>) returns (invalid: seq<Field>)
    ensures forall x :: multiset(invalid)[x] == multiset(fields)[x] * multiset(unavailable)[x]
    ensures NoDuplicates(unavailable) ==> invalid == Offending(fields, unavailable)
  {
    invalid := [];
    var i := 0;
    while i < |fields|
      invariant 0 <= i <= |fields|
      invariant invalid == Collected(fields[..i], unavailable)
    {
      assert fields[..i + 1][..i] == fields[..i];
      var hits := MatchesOf(fields[i], unavailable);
      invalid := invalid + hits;
      i := i + 1;
    }
    assert fields[..i] == fields;
    CollectedCounts(fields, unavailable);
    if NoDuplicates(unavailable) {
      CollectedWithoutDuplicates(fields, unavailable);
    }
  }

  /** The BadRequest a validator returns for offending fields: the endpoint
      path and the wire names joined by ", " inside parentheses. */
  function InvalidFieldsError(endpoint: string, offending: seq<Field>): (e: Error)
    ensures e.Http? && e.http.kind == BadRequest && e.http.endpoint == endpoint
    ensures e.http.message == "invalid fields provided (" + JoinFields(offending, ", ") + ")"
  {
    Http(HttpError(BadRequest, endpoint, "invalid fields provided (" + JoinFields(offending, ", ") + ")"))
  }

  /** The rendered message of that error, as callers see it. */
  lemma InvalidFieldsMessage(endpoint: string, offending: seq<Field>)
    ensures Message(InvalidFieldsError(endpoint, offending))
         == "bad request " + endpoint + ": " + ("invalid fields provided (" + JoinFields(offending, ", ") + ")")
  {
    var msg := "invalid fields provided (" + JoinFields(offending, ", ") + ")";
    assert InvalidFieldsError(endpoint, offending) == Http(HttpError(BadRequest, endpoint, msg));
    Renderings(endpoint, msg);
  }
}

=== FILE: errors.dfy ===
/** The error values of the client (errors.go), plus the other error
    sources its operations pass through unchanged. */
module Errors {
  import opened Wrappers

  /** Which of Go's HTTP error types a value is: the plain `HTTPError`
      (`Generic`) or one of the six types that embed it. */
  datatype HttpKind =
    | Generic
    | BadRequest
    | Unauthorized
    | Forbidden
    | TooManyRequests
    | InternalServer
    | NotFound

  /** The leading words of each type's `Error()` rendering. */
  function KindPhrase(k: HttpKind): (p: string)
    ensures |p| > 0
  {
    match k
    case Generic => "error"
    case BadRequest => "bad request"
    case Unauthorized => "unauthorized"
    case Forbidden => "forbidden"
    case TooManyRequests => "too many requests"
    case InternalServer => "internal server error"
    case NotFound => "not found error"
  }

  /** The status code each specific type stands for, as documented on the
      Go types; the generic type stands for none in particular. */
  function KindStatus(k: HttpKind): Option<int> {
    match k
    case Generic => None
    case BadRequest => Some(400)
    case Unauthorized => Some(401)
    case Forbidden => Some(403)
    case TooManyRequests => Some(429)
    case InternalServer => Some(500)
    case NotFound => Some(404)
  }

  /** An HTTP error: the Go struct `HTTPError{Endpoint, Message}` together
      with the type that wraps it. Building one with a `kind` is what the
      `new*Error` constructors do: they store endpoint and message as given. */
  datatype HttpError = HttpError(kind: HttpKind, endpoint: string, message: string) {

    /** `Error()`: kind phrase, endpoint, then the remote message. */
    function Render(): (s: string)
      ensures KindPhrase(kind) + " " + endpoint + ": " <= s
      ensures |s| == |KindPhrase(kind)| + |endpoint| + |message| + 3
      ensures s[|s| - |message|..] == message
    {
      KindPhrase(kind) + " " + endpoint + ": " + message
    }
  }

  /** Every error the client returns. */
  datatype Error =
      // The sentinel errors.
    | InvalidBaseURL
    | InvalidAPIKey
    | InvalidLatitude
    | InvalidLongitude
      // `errors.New("startTime must be before endTime")` in the nowcast validator.
    | TimeRange
      // One of the seven HTTP error types.
    | Http(http: HttpError)
      // A JSON decoding error, passed through as the decoder reported it.
    | Decode(reason: string)
      // A `time.Parse` failure on a timestamp that is not RFC 3339, with the
      // rejected text and the parser's explanation.
    | TimeParse(value: string, reason: string)
      // A URL parsing error from resolving the endpoint.
    | Url(reason: string)
      // A transport failure from the HTTP client.
    | Transport(reason: string)

  /** `err.Error()` for every error the client returns. */
  function Message(e: Error): (m: string)
    ensures !(e.Decode? || e.TimeParse? || e.Url? || e.Transport?) ==> |m| > 0
    ensures e.Http? ==> KindPhrase(e.http.kind) + " " + e.http.endpoint + ": " <= m
    ensures e.Http? ==> |e.http.message| <= |m| && m[|m| - |e.http.message|..] == e.http.message
    ensures e.Decode? || e.Url? || e.Transport? || e.TimeParse? ==> m == e.reason
  {
    match e
    case InvalidBaseURL => "invalid base URL provided"
    case InvalidAPIKey => "invalid api key provided"
    case InvalidLatitude => "invalid latitude provided"
    case InvalidLongitude => "invalid longitude provided"
    case TimeRange => "startTime must be before endTime"
    case Http(h) => h.Render()
    case Decode(reason) => reason
    case TimeParse(_, reason) => reason
    case Url(reason) => reason
    case Transport(reason) => reason
  }

  /** The fixed messages of the sentinel errors. */
  lemma SentinelMessages()
    ensures Message(InvalidBaseURL) == "invalid base URL provided"
    ensures Message(InvalidAPIKey) == "invalid api key provided"
    ensures Message(InvalidLatitude) == "invalid latitude provided"
    ensures Message(InvalidLongitude) == "invalid longitude provided"
  {
  }

  /** The nowcast validator's own error for an inverted time range. */
  lemma TimeRangeMessage()
    ensures Message(TimeRange) == "startTime must be before endTime"
  {
  }

  /** The rendering of each of the seven HTTP error types. */
  lemma Renderings(endpoint: string, message: string)
    ensures HttpError(Generic, endpoint, message).Render() == "error " + endpoint + ": " + message
    ensures HttpError(BadRequest, endpoint, message).Render() == "bad request " + endpoint + ": " + message
    ensures HttpError(Unauthorized, endpoint, message).Render() == "unauthorized " + endpoint + ": " + message
    ensures HttpError(Forbidden, endpoint, message).Render() == "forbidden " + endpoint + ": " + message
    ensures HttpError(TooManyRequests, endpoint, message).Render() == "too many requests " + endpoint + ": " + message
    ensures HttpError(InternalServer, endpoint, message).Render() == "internal server error " + endpoint + ": " + message
    ensures HttpError(NotFound, endpoint, message).Render() == "not found error " + endpoint + ": " + message
  {
    ClientErrorRenderings(endpoint, message);
    OtherRenderings(endpoint, message);
  }

  /** The renderings of the four 4xx error types. */
  lemma ClientErrorRenderings(endpoint: string, message: string)
    ensures HttpError(BadRequest, endpoint, message).Render() == "bad request " + endpoint + ": " + message
    ensures HttpError(Unauthorized, endpoint, message).Render() == "unauthorized " + endpoint + ": " + message
    ensures HttpError(Forbidden, endpoint, message).Render() == "forbidden " + endpoint + ": " + message
    ensures HttpError(NotFound, endpoint, message).Render() == "not found error " + endpoint + ": " + message
  {
  }

  /** The renderings of the generic, 429 and 500 error types. */
  lemma OtherRenderings(endpoint: string, message: string)
    ensures HttpError(Generic, endpoint, message).Render() == "error " + endpoint + ": " + message
    ensures HttpError(TooManyRequests, endpoint, message).Render() == "too many requests " + endpoint + ": " + message
    ensures HttpError(InternalServer, endpoint, message).Render() == "internal server error " + endpoint + ": " + message
  {
  }

  /** The kind phrases start with seven different letters, so the first
      character of a rendering already names the kind. */
  lemma PhraseFirstCharDistinct(a: HttpKind, b: HttpKind)
    ensures KindPhrase(a)[0] == KindPhrase(b)[0] ==> a == b
  {
  }

  /** A rendering, read with its endpoint known, gives back the error:
      its kind and the remote message. */
  lemma RenderDeterminesError(a: HttpError, b: HttpError)
    requires a.endpoint == b.endpoint
    requires a.Render() == b.Render()
    ensures a == b
  {
    var s := a.Render();
    assert s[0] == KindPhrase(a.kind)[0] && s[0] == KindPhrase(b.kind)[0];
    PhraseFirstCharDistinct(a.kind, b.kind);
    assert |a.message| == |b.message|;
  }
}

=== FILE: fields.dfy ===
/** The catalog of queryable weather fields (fields.go). In Go a field is an
    `int` constant made with `iota` whose wire name is the entry at that
    position of a parallel string table; here the catalog is a closed datatype
    with a total lookup, and the table is kept to state that the two agree. */
module Fields {
  import opened Wrappers

  /** The 44 field constants, in declaration (ordinal) order. */
  datatype Field =
    // Core
    | Temperature
    | FeelsLike
    | DewPoint
    | Humidity
    | WindSpeed
    | WindDirection
    | WindGust
    | BarometricPressure
    | Precipitation
    | PrecipitationType
    | PrecipitationProbability
    | PrecipitationAccumulation
    | Sunrise
    | Sunset
    | Visibility
    | CloudCover
    | CloudBase
    | CloudCeiling
    | CloudSatellite
    | SurfaceShortwaveRadiation
    | MoonPhase
    | WeatherCode
    | WeatherGroups
    // Air quality
    | ParticleMatter25
    | ParticleMatter10
    | Ozone
    | NitrogenDioxide
    | CarbonMonoxide
    | SulfurDioxide
    | AirQualityIndexEPA
    | PrimaryPollutantEPA
    | HealthConcernEPA
    | AirQualityIndexChinaMEP
    | PrimaryPollutantChinaMEP
    | HealthConcertChinaMEP
    // Pollen
    | TreePollen
    | WeedPollen
    | GrassPollen
    // Road
    | RoadRiskScore
    | RoadRisk
    | RoadRiskConfidence
    | RoadRiskConditions
    // Fire
    | FireIndex
    // Insurance
    | HailBinary

  /** Number of field constants, and of entries in the wire-name table. */
  const FieldCount: nat := 44

  /** The Go `fieldValues` table: wire names in ordinal order. */
  const FieldValues: seq<string> := [
    "temp",
    "feels_like",
    "dewpoint",
    "humidity",
    "wind_speed",
    "wind_direction",
    "wind_gust",
    "baro_pressure",
    "precipitation",
    "precipitation_type",
    "precipitation_probability",
    "precipitation_accumulation",
    "sunrise",
    "sunset",
    "visibility",
    "cloud_cover",
    "cloud_base",
    "cloud_ceiling",
    "cloud_satellite",
    "surface_shortwave_radiation",
    "moon_phase",
    "weather_code",
    "weather_groups",
    "pm25",
    "pm10",
    "o3",
    "no2",
    "co",
    "so2",
    "epa_aqi",
    "epa_primary_pollutant",
    "epa_health_concern",
    "china_aqi",
    "china_primary_pollutant",
    "china_health_concern",
    "pollen_tree",
    "pollen_weed",
    "pollen_grass",
    "road_risk_score",
    "road_risk",
    "road_risk_confidence",
    "road_risk_conditions",
    "fire_index",
    "hail_binary"
  ]

  /** The `iota` value of a field: its position in the declaration. */
  function Ordinal(f: Field): (n: nat)
    ensures n < FieldCount
  {
    match f
    case Temperature => 0
    case FeelsLike => 1
    case DewPoint => 2
    case Humidity => 3
    case WindSpeed => 4
    case WindDirection => 5
    case WindGust => 6
    case BarometricPressure => 7
    case Precipitation => 8
    case PrecipitationType => 9
    case PrecipitationProbability => 10
    case PrecipitationAccumulation => 11
    case Sunrise => 12
    case Sunset => 13
    case Visibility => 14
    case CloudCover => 15
    case CloudBase => 16
    case CloudCeiling => 17
    case CloudSatellite => 18
    case SurfaceShortwaveRadiation => 19
    case MoonPhase => 20
    case WeatherCode => 21
    case WeatherGroups => 22
    case ParticleMatter25 => 23
    case ParticleMatter10 => 24
    case Ozone => 25
    case NitrogenDioxide => 26
    case CarbonMonoxide => 27
    case SulfurDioxide => 28
    case AirQualityIndexEPA => 29
    case PrimaryPollutantEPA => 30
    case HealthConcernEPA => 31
    case AirQualityIndexChinaMEP => 32
    case PrimaryPollutantChinaMEP => 33
    case HealthConcertChinaMEP => 34
    case TreePollen => 35
    case WeedPollen => 36
    case GrassPollen => 37
    case RoadRiskScore => 38
    case RoadRisk => 39
    case RoadRiskConfidence => 40
    case RoadRiskConditions => 41
    case FireIndex => 42
    case HailBinary => 43
  }

  /** `field.String()`: the field's wire name, used in query strings and
      error messages. */
  function WireName(f: Field): (s: string)
    ensures |s| > 0
  {
    match f
    case Temperature => "temp"
    case FeelsLike => "feels_like"
    case DewPoint => "dewpoint"
    case Humidity => "humidity"
    case WindSpeed => "wind_speed"
    case WindDirection => "wind_direction"
    case WindGust => "wind_gust"
    case BarometricPressure => "baro_pressure"
    case Precipitation => "precipitation"
    case PrecipitationType => "precipitation_type"
    case PrecipitationProbability => "precipitation_probability"
    case PrecipitationAccumulation => "precipitation_accumulation"
    case Sunrise => "sunrise"
    case Sunset => "sunset"
    case Visibility => "visibility"
    case CloudCover => "cloud_cover"
    case CloudBase => "cloud_base"
    case CloudCeiling => "cloud_ceiling"
    case CloudSatellite => "cloud_satellite"
    case SurfaceShortwaveRadiation => "surface_shortwave_radiation"
    case MoonPhase => "moon_phase"
    case WeatherCode => "weather_code"
    case WeatherGroups => "weather_groups"
    case ParticleMatter25 => "pm25"
    case ParticleMatter10 => "pm10"
    case Ozone => "o3"
    case NitrogenDioxide => "no2"
    case CarbonMonoxide => "co"
    case SulfurDioxide => "so2"
    case AirQualityIndexEPA => "epa_aqi"
    case PrimaryPollutantEPA => "epa_primary_pollutant"
    case HealthConcernEPA => "epa_health_concern"
    case AirQualityIndexChinaMEP => "china_aqi"
    case PrimaryPollutantChinaMEP => "china_primary_pollutant"
    case HealthConcertChinaMEP => "china_health_concern"
    case TreePollen => "pollen_tree"
    case WeedPollen => "pollen_weed"
    case GrassPollen => "pollen_grass"
    case RoadRiskScore => "road_risk_score"
    case RoadRisk => "road_risk"
    case RoadRiskConfidence => "road_risk_confidence"
    case RoadRiskConditions => "road_risk_conditions"
    case FireIndex => "fire_index"
    case HailBinary => "hail_binary"
  }

  /** The field a wire name denotes, if any. */
  function FromWireName(s: string): Option<Field> {
    match s
    case "temp" => Some(Temperature)
    case "feels_like" => Some(FeelsLike)
    case "dewpoint" => Some(DewPoint)
    case "humidity" => Some(Humidity)
    case "wind_speed" => Some(WindSpeed)
    case "wind_direction" => Some(WindDirection)
    case "wind_gust" => Some(WindGust)
    case "baro_pressure" => Some(BarometricPressure)
    case "precipitation" => Some(Precipitation)
    case "precipitation_type" => Some(PrecipitationType)
    case "precipitation_probability" => Some(PrecipitationProbability)
    case "precipitation_accumulation" => Some(PrecipitationAccumulation)
    case "sunrise" => Some(Sunrise)
    case "sunset" => Some(Sunset)
    case "visibility" => Some(Visibility)
    case "cloud_cover" => Some(CloudCover)
    case "cloud_base" => Some(CloudBase)
    case "cloud_ceiling" => Some(CloudCeiling)
    case "cloud_satellite" => Some(CloudSatellite)
    case "surface_shortwave_radiation" => Some(SurfaceShortwaveRadiation)
    case "moon_phase" => Some(MoonPhase)
    case "weather_code" => Some(WeatherCode)
    case "weather_groups" => Some(WeatherGroups)
    case "pm25" => Some(ParticleMatter25)
    case "pm10" => Some(ParticleMatter10)
    case "o3" => Some(Ozone)
    case "no2" => Some(NitrogenDioxide)
    case "co" => Some(CarbonMonoxide)
    case "so2" => Some(SulfurDioxide)
    case "epa_aqi" => Some(AirQualityIndexEPA)
    case "epa_primary_pollutant" => Some(PrimaryPollutantEPA)
    case "epa_health_concern" => Some(HealthConcernEPA)
    case "china_aqi" => Some(AirQualityIndexChinaMEP)
    case "china_primary_pollutant" => Some(PrimaryPollutantChinaMEP)
    case "china_health_concern" => Some(HealthConcertChinaMEP)
    case "pollen_tree" => Some(TreePollen)
    case "pollen_weed" => Some(WeedPollen)
    case "pollen_grass" => Some(GrassPollen)
    case "road_risk_score" => Some(RoadRiskScore)
    case "road_risk" => Some(RoadRisk)
    case "road_risk_confidence" => Some(RoadRiskConfidence)
    case "road_risk_conditions" => Some(RoadRiskConditions)
    case "fire_index" => Some(FireIndex)
    case "hail_binary" => Some(HailBinary)
    case _ => None
  }

  /** The table holds one name per field. */
  lemma TableLength()
    ensures |FieldValues| == FieldCount
  {
  }

  /** Reading a wire name back gives the field it names. (Proved a quarter
      of the catalog at a time.) */
  lemma WireNameRoundTrip(f: Field)
    ensures FromWireName(WireName(f)) == Some(f)
  {
    if Ordinal(f) < 11 {
      RoundTrip0(f);
    } else if Ordinal(f) < 22 {
      RoundTrip1(f);
    } else if Ordinal(f) < 33 {
      RoundTrip2(f);
    } else {
      RoundTrip3(f);
    }
  }

  lemma RoundTrip0(f: Field)
    requires 0 <= Ordinal(f) < 11
    ensures FromWireName(WireName(f)) == Some(f)
  {
    TableLength();
  }

  lemma RoundTrip1(f: Field)
    requires 11 <= Ordinal(f) < 22
    ensures FromWireName(WireName(f)) == Some(f)
  {
    TableLength();
  }

  lemma RoundTrip2(f: Field)
    requires 22 <= Ordinal(f) < 33
    ensures FromWireName(WireName(f)) == Some(f)
  {
    TableLength();
  }

  lemma RoundTrip3(f: Field)
    requires 33 <= Ordinal(f) < 44
    ensures FromWireName(WireName(f)) == Some(f)
  {
    TableLength();
  }

  /** No wire name contains a comma, so comma-joined lists split back apart.
      (Proved a quarter of the catalog at a time to keep each obligation
      small.) */
  lemma WireNameNoComma(f: Field)
    ensures ',' !in WireName(f)
  {
    if Ordinal(f) < 11 {
      NoComma0(f);
    } else if Ordinal(f) < 22 {
      NoComma1(f);
    } else if Ordinal(f) < 33 {
      NoComma2(f);
    } else {
      NoComma3(f);
    }
  }

  lemma NoComma0(f: Field)
    requires 0 <= Ordinal(f) < 11
    ensures ',' !in WireName(f)
  {
    TableLength();
  }

  lemma NoComma1(f: Field)
    requires 11 <= Ordinal(f) < 22
    ensures ',' !in WireName(f)
  {
    TableLength();
  }

  lemma NoComma2(f: Field)
    requires 22 <= Ordinal(f) < 33
    ensures ',' !in WireName(f)
  {
    TableLength();
  }

  lemma NoComma3(f: Field)
    requires 33 <= Ordinal(f) < 44
    ensures ',' !in WireName(f)
  {
    TableLength();
  }

  /** Wire names are pairwise distinct: a wire name identifies its field. */
  lemma WireNameInjective(a: Field, b: Field)
    ensures WireName(a) == WireName(b) ==> a == b
  {
    WireNameRoundTrip(a);
    WireNameRoundTrip(b);
  }

  /** Wire names the rest of the library and its users depend on. */
  lemma KnownWireNames()
    ensures WireName(Temperature) == "temp"
    ensures WireName(HailBinary) == "hail_binary"
    ensures WireName(DewPoint) == "dewpoint"
    ensures WireName(Ozone) == "o3"
    ensures WireName(HealthConcertChinaMEP) == "china_health_concern"
  {
  }
}

/** Agreement between the closed catalog and Go's positional representation:
    the `fieldValues` table indexed by the `iota` ordinal. */
module FieldTable {
  import opened Fields

  // The entries of the wire-name table, four at a time (one lemma per
  // group keeps each proof obligation small).

  lemma TableEntries0()
    ensures FieldValues[0] == "temp"
    ensures FieldValues[1] == "feels_like"
    ensures FieldValues[2] == "dewpoint"
    ensures FieldValues[3] == "humidity"
  {
  }

  lemma TableEntries1()
    ensures FieldValues[4] == "wind_speed"
    ensures FieldValues[5] == "wind_direction"
    ensures FieldValues[6] == "wind_gust"
    ensures FieldValues[7] == "baro_pressure"
  {
  }

  lemma TableEntries2()
    ensures FieldValues[8] == "precipitation"
    ensures FieldValues[9] == "precipitation_type"
    ensures FieldValues[10] == "precipitation_probability"
    ensures FieldValues[11] == "precipitation_accumulation"
  {
  }

  lemma TableEntries3()
    ensures FieldValues[12] == "sunrise"
    ensures FieldValues[13] == "sunset"
    ensures FieldValues[14] == "visibility"
    ensures FieldValues[15] == "cloud_cover"
  {
  }

  lemma TableEntries4()
    ensures FieldValues[16] == "cloud_base"
    ensures FieldValues[17] == "cloud_ceiling"
    ensures FieldValues[18] == "cloud_satellite"
    ensures FieldValues[19] == "surface_shortwave_radiation"
  {
  }

  lemma TableEntries5()
    ensures FieldValues[20] == "moon_phase"
    ensures FieldValues[21] == "weather_code"
    ensures FieldValues[22] == "weather_groups"
    ensures FieldValues[23] == "pm25"
  {
  }

  lemma TableEntries6()
    ensures FieldValues[24] == "pm10"
    ensures FieldValues[25] == "o3"
    ensures FieldValues[26] == "no2"
    ensures FieldValues[27] == "co"
  {
  }

  lemma TableEntries7()
    ensures FieldValues[28] == "so2"
    ensures FieldValues[29] == "epa_aqi"
    ensures FieldValues[30] == "epa_primary_pollutant"
    ensures FieldValues[31] == "epa_health_concern"
  {
  }

  lemma TableEntries8()
    ensures FieldValues[32] == "china_aqi"
    ensures FieldValues[33] == "china_primary_pollutant"
    ensures FieldValues[34] == "china_health_concern"
    ensures FieldValues[35] == "pollen_tree"
  {
  }

  lemma TableEntries9()
    ensures FieldValues[36] == "pollen_weed"
    ensures FieldValues[37] == "pollen_grass"
    ensures FieldValues[38] == "road_risk_score"
    ensures FieldValues[39] == "road_risk"
  {
  }

  lemma TableEntries10()
    ensures FieldValues[40] == "road_risk_confidence"
    ensures FieldValues[41] == "road_risk_conditions"
    ensures FieldValues[42] == "fire_index"
    ensures FieldValues[43] == "hail_binary"
  {
  }

  /** `field.String()` indexes the table by the ordinal; the match-based
      lookup returns exactly that entry, so the index never falls outside the
      table and the two representations agree on every field. */
  lemma WireNameIsTableEntry(f: Field)
    ensures |FieldValues| == FieldCount
    ensures Ordinal(f) < |FieldValues|
    ensures WireName(f) == FieldValues[Ordinal(f)]
  {
    TableEntries0();
    TableEntries1();
    TableEntries2();
    TableEntries3();
    TableEntries4();
    TableEntries5();
    TableEntries6();
    TableEntries7();
    TableEntries8();
    TableEntries9();
    TableEntries10();
  }

  /** Distinct fields have distinct ordinals, so the table lookup gives each
      field its own entry. */
  lemma OrdinalInjective(a: Field, b: Field)
    ensures Ordinal(a) == Ordinal(b) ==> a == b
  {
    if Ordinal(a) == Ordinal(b) {
      WireNameIsTableEntry(a);
      WireNameIsTableEntry(b);
      WireNameInjective(a, b);
    }
  }
}

=== FILE: nowcast.dfy ===
/** The nowcast endpoint (nowcast.go): argument validation with its time
    range check, the time parameters, the seven-key parameter map and the
    control flow from arguments to decoded steps. */
module NowcastApi {
  import opened Wrappers
  import opened Text
  import opened Times
  import opened Fields
  import Units
  import opened Errors
  import opened Util
  import opened Eligibility
  import opened Structures
  import opened Requests

  const NowcastEndpoint := "/v3/weather/nowcast"

  /** The fields the nowcast endpoint does not serve. */
  const NowcastUnavailable: seq<Field> :=
    [PrecipitationProbability, PrecipitationAccumulation, CloudSatellite, MoonPhase, WeatherGroups, FireIndex]

  /** Both times are given and the start is strictly later than the end.
      Equal instants are a valid range. */
  predicate RangeInverted(startTime: Option<Time>, endTime: Option<Time>) {
    startTime.Some? && endTime.Some? && After(startTime.value, endTime.value)
  }

  /** The list names each of its fields once, and names exactly these. */
  lemma NowcastUnavailableMembers()
    ensures NoDuplicates(NowcastUnavailable)
    ensures forall x :: x in NowcastUnavailable <==> x in {PrecipitationProbability, PrecipitationAccumulation, CloudSatellite, MoonPhase, WeatherGroups, FireIndex}
  {
  }

  /** Arguments that pass validation. */
  predicate NowcastArgsValid(latitude: real, longitude: real, startTime: Option<Time>, endTime: Option<Time>, fields: seq<Field>) {
    && ValidLatitude(latitude) && ValidLongitude(longitude)
    && !RangeInverted(startTime, endTime)
    && Offending(fields, NowcastUnavailable) == []
  }

  /** Validity spelled out: coordinates in range, the start not a later
      instant than the end, and none of the six unavailable fields. */
  lemma NowcastArgsValidIff(latitude: real, longitude: real, startTime: Option<Time>, endTime: Option<Time>, fields: seq<Field>)
    ensures NowcastArgsValid(latitude, longitude, startTime, endTime, fields) <==>
      && ValidLatitude(latitude) && ValidLongitude(longitude)
      && !(startTime.Some? && endTime.Some? && startTime.value.unixNanos > endTime.value.unixNanos)
      && forall i :: 0 <= i < |fields| ==>
           fields[i] !in {PrecipitationProbability, PrecipitationAccumulation, CloudSatellite, MoonPhase, WeatherGroups, FireIndex}
  {
    NowcastUnavailableMembers();
    OffendingEmptyIn(fields, NowcastUnavailable, {PrecipitationProbability, PrecipitationAccumulation, CloudSatellite, MoonPhase, WeatherGroups, FireIndex});
  }

  /** `validateNowcastArgs`: latitude, then longitude, then the time range,
      then the fields. The offending fields are collected before the range
      is checked, but an inverted range is the error reported. */
  method ValidateNowcastArgs(latitude: real, longitude: real, startTime: Option<Time>, endTime: Option<Time>, fields: seq<Field>)
    returns (err: Option<Error>)
    ensures !ValidLatitude(latitude) ==> err == Some(InvalidLatitude)
    ensures ValidLatitude(latitude) && !ValidLongitude(longitude) ==> err == Some(InvalidLongitude)
    ensures ValidLatitude(latitude) && ValidLongitude(longitude) && RangeInverted(startTime, endTime) ==> err == Some(TimeRange)
    ensures (ValidLatitude(latitude) && ValidLongitude(longitude) && !RangeInverted(startTime, endTime)
             && Offending(fields, NowcastUnavailable) != []) ==>
      err == Some(InvalidFieldsError(NowcastEndpoint, Offending(fields, NowcastUnavailable)))
    ensures err.None? <==> NowcastArgsValid(latitude, longitude, startTime, endTime, fields)
  {
    if !ValidLatitude(latitude) {
      return Some(InvalidLatitude);
    }
    if !ValidLongitude(longitude) {
      return Some(InvalidLongitude);
    }
    NowcastUnavailableMembers();
    var invalid := CollectOffending(fields, NowcastUnavailable);
    if startTime.Some? && endTime.Some? {
      if After(startTime.value, endTime.value) {
        return Some(TimeRange);
      }
    }
    if |invalid| > 0 {
      return Some(InvalidFieldsError(NowcastEndpoint, invalid));
    }
    return None;
  }

  /** The `start_time` and `end_time` values as the code computes them: a
      missing start is "now" and a missing end is "". A supplied time is
      formatted but the result is never assigned, so the value stays "". */
  function NowcastTimeStrings(startTime: Option<Time>, endTime: Option<Time>): (p: (string, string))
    ensures p.0 == "now" <==> startTime.None?
    ensures p.0 == "" <==> startTime.Some?
    ensures p.1 == ""
  {
    var startText := if startTime.None? then "now" else "";
    var endText := if endTime.None? then "" else "";
    (startText, endText)
  }

  /** As written, a supplied time never reaches the request: a start or an
      end whose RFC 3339 text is nonempty is sent as "", exactly as a
      missing end is, and two different starts are sent alike. */
  lemma SuppliedTimesDiscarded(t: Time, u: Time, other: Option<Time>, format: Time -> string)
    requires format(t) != ""
    ensures NowcastTimeStrings(Some(t), other).0 != format(t)
    ensures NowcastTimeStrings(other, Some(t)).1 != format(t)
    ensures NowcastTimeStrings(other, Some(t)).1 == NowcastTimeStrings(other, None).1
    ensures NowcastTimeStrings(Some(t), other) == NowcastTimeStrings(Some(u), other)
  {
  }

  /** The time values with the formatted text kept, as the surrounding code
      evidently intends: "now" or "" when a time is missing, its RFC 3339
      text when it is supplied. */
  function NowcastTimeStringsIntended(startTime: Option<Time>, endTime: Option<Time>, format: Time -> string): (p: (string, string))
    ensures startTime.None? ==> p.0 == "now"
    ensures endTime.None? ==> p.1 == ""
    ensures startTime.Some? ==> p.0 == format(startTime.value)
    ensures endTime.Some? ==> p.1 == format(endTime.value)
  {
    var startText := match startTime
      case None => "now"
      case Some(t) => format(t);
    var endText := match endTime
      case None => ""
      case Some(t) => format(t);
    (startText, endText)
  }

  /** With the formatted text kept, the service reads back the very instants
      the caller supplied, whenever RFC 3339 parsing undoes formatting. */
  lemma IntendedTimesReadBack(startTime: Option<Time>, endTime: Option<Time>, format: Time -> string, parse: string -> Result<Time, string>)
    requires startTime.Some? ==> parse(format(startTime.value)) == Success(startTime.value)
    requires endTime.Some? ==> parse(format(endTime.value)) == Success(endTime.value)
    ensures var p := NowcastTimeStringsIntended(startTime, endTime, format);
      && (startTime.Some? ==> parse(p.0) == Success(startTime.value))
      && (endTime.Some? ==> parse(p.1) == Success(endTime.value))
      && (startTime.None? ==> p.0 == "now")
  {
  }

  /** The parameter map `Nowcast` hands to `makeRequest`, each value rendered
      as `%v` renders it: exactly the seven keys. */
  function NowcastParameters(latitude: real, longitude: real, unit: Units.Unit, timeStep: int, times: (string, string), fields: seq<Field>, formatFloat: real -> string)
    : (m: map<string, string>)
    ensures m.Keys == {"lat", "lon", "unit_system", "timestep", "start_time", "end_time", "fields"}
  {
    map[
      "lat" := formatFloat(latitude),
      "lon" := formatFloat(longitude),
      "unit_system" := Units.WireName(unit),
      "timestep" := DecimalString(timeStep),
      "start_time" := times.0,
      "end_time" := times.1,
      "fields" := JoinFields(fields, ",")]
  }

  /** The coordinates, the unit system and the two time values are sent as
      given. */
  lemma NowcastParameterValues(latitude: real, longitude: real, unit: Units.Unit, timeStep: int, times: (string, string), fields: seq<Field>, formatFloat: real -> string)
    ensures var m := NowcastParameters(latitude, longitude, unit, timeStep, times, fields, formatFloat);
      && m["lat"] == formatFloat(latitude) && m["lon"] == formatFloat(longitude)
      && m["unit_system"] == Units.WireName(unit)
      && m["start_time"] == times.0 && m["end_time"] == times.1
  {
    SitingValues(latitude, longitude, unit, timeStep, times, fields, formatFloat);
    TimeValues(latitude, longitude, unit, timeStep, times, fields, formatFloat);
  }

  /** The location and unit parameters, as `NowcastParameterValues` states them. */
  lemma SitingValues(latitude: real, longitude: real, unit: Units.Unit, timeStep: int, times: (string, string), fields: seq<Field>, formatFloat: real -> string)
    ensures var m := NowcastParameters(latitude, longitude, unit, timeStep, times, fields, formatFloat);
      && m["lat"] == formatFloat(latitude) && m["lon"] == formatFloat(longitude)
      && m["unit_system"] == Units.WireName(unit)
  {
  }

  /** The two time parameters, as `NowcastParameterValues` states them. */
  lemma TimeValues(latitude: real, longitude: real, unit: Units.Unit, timeStep: int, times: (string, string), fields: seq<Field>, formatFloat: real -> string)
    ensures var m := NowcastParameters(latitude, longitude, unit, timeStep, times, fields, formatFloat);
      m["start_time"] == times.0 && m["end_time"] == times.1
  {
  }

  /** The service can read the numeric and list parameters back: the time
      step is the caller's integer, and `fields` splits on commas into the
      requested wire names in order (or is empty when none were requested). */
  lemma NowcastParametersReadBack(latitude: real, longitude: real, unit: Units.Unit, timeStep: int, times: (string, string), fields: seq<Field>, formatFloat: real -> string)
    ensures var m := NowcastParameters(latitude, longitude, unit, timeStep, times, fields, formatFloat);
      && ParseDecimal(m["timestep"]) == Some(timeStep)
      && (|fields| == 0 ==> m["fields"] == "")
      && (|fields| > 0 ==> Split(m["fields"], ',') == WireNames(fields))
  {
    DecimalRoundTrip(timeStep);
    if |fields| > 0 {
      JoinFieldsSplits(fields);
    }
  }

  /** `Client.Nowcast`, with the time values kept (see
      `NowcastTimeStringsIntended`). `sent` is the request handed to the
      transport, if any. A validation error is returned before any request
      is built; a URL error before anything is sent; after sending, a
      transport error, a non-200 status or an undecodable body is the
      result. */
  method Nowcast(c: Client, latitude: real, longitude: real, unit: Units.Unit, timeStep: int,
                 startTime: Option<Time>, endTime: Option<Time>, fields: seq<Field>, env: Env)
    returns (r: Result<seq<NowcastData>, Error>, sent: Option<Request>)
    ensures !ValidLatitude(latitude) ==> r == Failure(InvalidLatitude) && sent.None?
    ensures ValidLatitude(latitude) && !ValidLongitude(longitude) ==> r == Failure(InvalidLongitude) && sent.None?
    ensures ValidLatitude(latitude) && ValidLongitude(longitude) && RangeInverted(startTime, endTime) ==>
      r == Failure(TimeRange) && sent.None?
    ensures (ValidLatitude(latitude) && ValidLongitude(longitude) && !RangeInverted(startTime, endTime)
             && Offending(fields, NowcastUnavailable) != []) ==>
      r == Failure(InvalidFieldsError(NowcastEndpoint, Offending(fields, NowcastUnavailable))) && sent.None?
    ensures sent.Some? <==>
      NowcastArgsValid(latitude, longitude, startTime, endTime, fields) && env.resolve(c.baseURL, NowcastEndpoint).Success?
    ensures NowcastArgsValid(latitude, longitude, startTime, endTime, fields) && env.resolve(c.baseURL, NowcastEndpoint).Failure? ==>
      r == Failure(Url(env.resolve(c.baseURL, NowcastEndpoint).error))
    ensures sent.Some? ==>
      var u := env.resolve(c.baseURL, NowcastEndpoint).value;
      var times := NowcastTimeStringsIntended(startTime, endTime, env.formatTime);
      && sent.value.verb == "GET"
      && sent.value.address == u.address
      && sent.value.query == u.query + NowcastParameters(latitude, longitude, unit, timeStep, times, fields, env.formatFloat)
      && sent.value.header == map[ApiKeyHeader := c.apiKey]
    ensures sent.Some? ==>
      match DoRequest(sent.value, NowcastEndpoint, env)
      case Failure(e) => r == Failure(e)
      case Success(body) => r == Decoded(env.decodeNowcast(body))
  {
    sent := None;
    var err := ValidateNowcastArgs(latitude, longitude, startTime, endTime, fields);
    if err.Some? {
      r := Failure(err.value);
      return;
    }
    var times := NowcastTimeStringsIntended(startTime, endTime, env.formatTime);
    var parameters := NowcastParameters(latitude, longitude, unit, timeStep, times, fields, env.formatFloat);
    r, sent := SendNowcast(c, parameters, env);
  }

  /** The request half of `Nowcast`, once the arguments have passed: build
      the request, send it, check the status and decode the steps. */
  method SendNowcast(c: Client, parameters: map<string, string>, env: Env)
    returns (r: Result<seq<NowcastData>, Error>, sent: Option<Request>)
    ensures sent.Some? <==> env.resolve(c.baseURL, NowcastEndpoint).Success?
    ensures env.resolve(c.baseURL, NowcastEndpoint).Failure? ==>
      r == Failure(Url(env.resolve(c.baseURL, NowcastEndpoint).error))
    ensures sent.Some? ==>
      var u := env.resolve(c.baseURL, NowcastEndpoint).value;
      && sent.value.verb == "GET"
      && sent.value.address == u.address
      && sent.value.query == u.query + parameters
      && sent.value.header == map[ApiKeyHeader := c.apiKey]
    ensures sent.Some? ==>
      match DoRequest(sent.value, NowcastEndpoint, env)
      case Failure(e) => r == Failure(e)
      case Success(body) => r == Decoded(env.decodeNowcast(body))
  {
    sent := None;
    var req := MakeRequest(c, NowcastEndpoint, parameters, env);
    match req
    case Failure(e) =>
      r := Failure(e);
    case Success(request) =>
      sent := Some(request);
      match DoRequest(request, NowcastEndpoint, env)
      case Failure(e) =>
        r := Failure(e);
      case Success(body) =>
        r := Decoded(env.decodeNowcast(body));
  }
}

=== FILE: realtime.dfy ===
/** The realtime endpoint (realtime.go): argument validation, the query it
    sends and the control flow from arguments to decoded data. */
module RealtimeApi {
  import opened Wrappers
  import opened Text
  import opened Fields
  import Units
  import opened Errors
  import opened Util
  import opened Eligibility
  import opened Structures
  import opened Requests

  const RealtimeEndpoint := "/v3/weather/realtime"

  /** The fields the realtime endpoint does not serve. */
  const RealtimeUnavailable: seq<Field> := [PrecipitationProbability, PrecipitationAccumulation, CloudSatellite, WeatherGroups]

  /** The list names each of its fields once, and names exactly these. */
  lemma RealtimeUnavailableMembers()
    ensures NoDuplicates(RealtimeUnavailable)
    ensures forall x :: x in RealtimeUnavailable <==> x in {PrecipitationProbability, PrecipitationAccumulation, CloudSatellite, WeatherGroups}
  {
  }

  /** Arguments that pass validation: both coordinates in range and no
      field the endpoint does not serve. */
  predicate RealtimeArgsValid(latitude: real, longitude: real, fields: seq<Field>) {
    ValidLatitude(latitude) && ValidLongitude(longitude) && Offending(fields, RealtimeUnavailable) == []
  }

  /** Validity spelled out: coordinates in range and none of the four
      unavailable fields. */
  lemma RealtimeArgsValidIff(latitude: real, longitude: real, fields: seq<Field>)
    ensures RealtimeArgsValid(latitude, longitude, fields) <==>
      && ValidLatitude(latitude) && ValidLongitude(longitude)
      && forall i :: 0 <= i < |fields| ==> fields[i] !in {PrecipitationProbability, PrecipitationAccumulation, CloudSatellite, WeatherGroups}
  {
    RealtimeUnavailableMembers();
    OffendingEmptyIn(fields, RealtimeUnavailable, {PrecipitationProbability, PrecipitationAccumulation, CloudSatellite, WeatherGroups});
  }

  /** `validateRealtimeArgs`: latitude first, then longitude, then the
      fields; one error at most. The offending fields are reported in the
      caller's order, duplicates included. */
  method ValidateRealtimeArgs(latitude: real, longitude: real, fields: seq<Field>) returns (err: Option<Error>)
    ensures !ValidLatitude(latitude) ==> err == Some(InvalidLatitude)
    ensures ValidLatitude(latitude) && !ValidLongitude(longitude) ==> err == Some(InvalidLongitude)
    ensures ValidLatitude(latitude) && ValidLongitude(longitude) && Offending(fields, RealtimeUnavailable) != [] ==>
      err == Some(InvalidFieldsError(RealtimeEndpoint, Offending(fields, RealtimeUnavailable)))
    ensures err.None? <==> RealtimeArgsValid(latitude, longitude, fields)
  {
    if !ValidLatitude(latitude) {
      return Some(InvalidLatitude);
    }
    if !ValidLongitude(longitude) {
      return Some(InvalidLongitude);
    }
    RealtimeUnavailableMembers();
    var invalid := CollectOffending(fields, RealtimeUnavailable);
    if |invalid| > 0 {
      return Some(InvalidFieldsError(RealtimeEndpoint, invalid));
    }
    return None;
  }

  /** The query `Realtime` sends: the resolved URL's own parameters with
      `lat`, `lon`, `unit_system` and `fields` set. `fields` is set even
      when no field is asked for, and then it is empty. */
  function RealtimeQuery(q0: map<string, string>, latitude: real, longitude: real, unit: Units.Unit, fields: seq<Field>, formatFloat: real -> string): (q: map<string, string>)
    ensures q.Keys == q0.Keys + {"lat", "lon", "unit_system", "fields"}
    ensures forall k :: k in q0 && k !in {"lat", "lon", "unit_system", "fields"} ==> q[k] == q0[k]
  {
    q0["lat" := formatFloat(latitude)]["lon" := formatFloat(longitude)]
      ["unit_system" := Units.WireName(unit)]["fields" := JoinFields(fields, ",")]
  }

  /** The service can read the request back: the coordinates are sent as
      `%g` renders them, the unit system names the unit asked for, and the
      `fields` value splits on commas into the requested wire names, in
      order, or is empty when none were requested. */
  lemma RealtimeQueryReadsBack(q0: map<string, string>, latitude: real, longitude: real, unit: Units.Unit, other: Units.Unit, fields: seq<Field>, formatFloat: real -> string)
    ensures var q := RealtimeQuery(q0, latitude, longitude, unit, fields, formatFloat);
      && q["lat"] == formatFloat(latitude) && q["lon"] == formatFloat(longitude)
      && (q["unit_system"] == Units.WireName(other) <==> unit == other)
      && (|fields| == 0 ==> q["fields"] == "")
      && (|fields| > 0 ==> Split(q["fields"], ',') == WireNames(fields))
  {
    Units.WireNames(unit, other);
    if |fields| > 0 {
      JoinFieldsSplits(fields);
    }
  }

  /** `Client.Realtime`. `sent` is the request handed to the transport, if
      any. A validation error is returned before any URL or request exists;
      a URL error before anything is sent; after sending, a transport error,
      a non-200 status or an undecodable body is the result. */
  method Realtime(c: Client, latitude: real, longitude: real, unit: Units.Unit, fields: seq<Field>, env: Env)
    returns (r: Result<RealtimeData, Error>, sent: Option<Request>)
    ensures !ValidLatitude(latitude) ==> r == Failure(InvalidLatitude) && sent.None?
    ensures ValidLatitude(latitude) && !ValidLongitude(longitude) ==> r == Failure(InvalidLongitude) && sent.None?
    ensures ValidLatitude(latitude) && ValidLongitude(longitude) && Offending(fields, RealtimeUnavailable) != [] ==>
      r == Failure(InvalidFieldsError(RealtimeEndpoint, Offending(fields, RealtimeUnavailable))) && sent.None?
    ensures sent.Some? <==> RealtimeArgsValid(latitude, longitude, fields) && env.resolve(c.baseURL, RealtimeEndpoint).Success?
    ensures RealtimeArgsValid(latitude, longitude, fields) && env.resolve(c.baseURL, RealtimeEndpoint).Failure? ==>
      r == Failure(Url(env.resolve(c.baseURL, RealtimeEndpoint).error))
    ensures sent.Some? ==>
      var u := env.resolve(c.baseURL, RealtimeEndpoint).value;
      sent.value == Request("GET", u.address, RealtimeQuery(u.query, latitude, longitude, unit, fields, env.formatFloat), map[ApiKeyHeader := c.apiKey])
    ensures sent.Some? ==>
      match DoRequest(sent.value, RealtimeEndpoint, env)
      case Failure(e) => r == Failure(e)
      case Success(body) => r == Decoded(env.decodeRealtime(body))
  {
    sent := None;
    var err := ValidateRealtimeArgs(latitude, longitude, fields);
    if err.Some? {
      r := Failure(err.value);
      return;
    }
    match env.resolve(c.baseURL, RealtimeEndpoint)
    case Failure(e) =>
      r := Failure(Url(e));
    case Success(u) =>
      var q := RealtimeQuery(u.query, latitude, longitude, unit, fields, env.formatFloat);
      var req := Request("GET", u.address, q, map[ApiKeyHeader := c.apiKey]);
      sent := Some(req);
      match DoRequest(req, RealtimeEndpoint, env)
      case Failure(e) =>
        r := Failure(e);
      case Success(body) =>
        r := Decoded(env.decodeRealtime(body));
  }
}

=== FILE: structures.dfy ===
/** The response model (structures.go): nested layers of independently
    optional values, the scalar wrappers that hold them, their renderings,
    and the decoding rule of the timestamp wrapper. */
module Structures {
  import opened Wrappers
  import opened Text
  import opened Times
  import opened Errors
  import opened Fields

  /** A number with its unit of measure; the value may be absent. */
  datatype FloatData = FloatData(value: Option<real>, units: string)

  /** A whole number with its unit of measure; the value may be absent. */
  datatype IntData = IntData(value: Option<int>, units: string)

  /** A text value that may be absent. */
  datatype StringData = StringData(value: Option<string>)

  /** A timestamp, decoded from an object `{"value": "<RFC 3339>"}`. */
  datatype TimeData = TimeData(value: Time)

  /** A pollen count. */
  datatype PollenData = PollenData(value: int)

  /** The Core layer; every member may be absent from a response. */
  datatype CoreLayer = CoreLayer(
    temperature: Option<FloatData>,
    feelsLike: Option<FloatData>,
    dewPoint: Option<FloatData>,
    windSpeed: Option<FloatData>,
    windGust: Option<FloatData>,
    barometricPressure: Option<FloatData>,
    visibility: Option<IntData>,
    humidity: Option<FloatData>,
    windDirection: Option<FloatData>,
    precipitation: Option<FloatData>,
    precipitationType: Option<StringData>,
    precipitationProbability: Option<FloatData>,
    precipitationAccumulation: Option<FloatData>,
    cloudCover: Option<FloatData>,
    cloudCeiling: Option<IntData>,
    cloudBase: Option<IntData>,
    cloudSatellite: Option<FloatData>,
    surfaceShortwaveRadiation: Option<IntData>,
    sunrise: Option<TimeData>,
    sunset: Option<TimeData>,
    moonPhase: Option<StringData>,
    weatherCode: Option<StringData>,
    weatherGroups: Option<seq<string>>)

  /** The Air-quality layer. */
  datatype AirQualityLayer = AirQualityLayer(
    particulateMatter25: Option<FloatData>,
    particulateMatter10: Option<FloatData>,
    ozone: Option<FloatData>,
    nitrogenDioxide: Option<FloatData>,
    carbonMonoxide: Option<FloatData>,
    sulfurDioxide: Option<FloatData>,
    airQualityIndexEPA: Option<FloatData>,
    primaryPollutantEPA: Option<StringData>,
    healthConcernEPA: Option<StringData>,
    airQualityIndexChinaMEP: Option<FloatData>,
    primaryPollutantChinaMEP: Option<StringData>,
    healthConcernChinaMEP: Option<StringData>)

  /** Pollen counts per tree species. */
  datatype PollenTree = PollenTree(
    acacia: Option<PollenData>, ash: Option<PollenData>, beech: Option<PollenData>,
    birch: Option<PollenData>, cedar: Option<PollenData>, cypress: Option<PollenData>,
    elder: Option<PollenData>, elm: Option<PollenData>, hemlock: Option<PollenData>,
    hickory: Option<PollenData>, juniper: Option<PollenData>, mahogany: Option<PollenData>,
    maple: Option<PollenData>, mulberry: Option<PollenData>, oak: Option<PollenData>,
    pine: Option<PollenData>, cottonwood: Option<PollenData>, spruce: Option<PollenData>,
    sycamore: Option<PollenData>, walnut: Option<PollenData>, willow: Option<PollenData>)

  datatype PollenWeed = PollenWeed(ragweed: Option<PollenData>)

  datatype PollenGrass = PollenGrass(grass: Option<PollenData>)

  /** The Pollen layer. Its three groups are plain structs in Go, so they
      are always present (possibly with every species absent). */
  datatype PollenLayer = PollenLayer(tree: PollenTree, weed: PollenWeed, grass: PollenGrass)

  /** The Road layer: plain values that default to "" and 0 when missing. */
  datatype RoadLayer = RoadLayer(
    roadRiskScore: string,
    roadRisk: string,
    roadRiskConfidence: int,
    roadRiskConditions: string)

  datatype FireLayer = FireLayer(fireIndex: Option<FloatData>)

  datatype InsuranceLayer = InsuranceLayer(hailBinary: Option<IntData>)

  /** The realtime response: Core, Air quality, Pollen, Road and Fire
      layers, and no Insurance layer. */
  datatype RealtimeData = RealtimeData(
    core: CoreLayer,
    airQuality: AirQualityLayer,
    pollen: PollenLayer,
    road: RoadLayer,
    fire: FireLayer)

  /** The position and observation time every nowcast step carries. The
      observation time is a plain struct in Go, so it is always present. */
  datatype ApiResponse = ApiResponse(latitude: real, longitude: real, observationTime: TimeData)

  /** One nowcast step: the envelope plus Core, Air quality, Pollen, Road and
      Insurance layers, and no Fire layer. */
  datatype NowcastData = NowcastData(
    envelope: ApiResponse,
    core: CoreLayer,
    airQuality: AirQualityLayer,
    pollen: PollenLayer,
    road: RoadLayer,
    insurance: InsuranceLayer)

  /** `FloatData.String()`. `formatG` is Go's `%g` formatting of a float.
      An absent value shows as "0"; the units follow after one space, even
      when they are empty. */
  function FloatString(d: FloatData, formatG: real -> string): (s: string)
    ensures |d.units| + 1 <= |s|
    ensures s[|s| - |d.units| - 1..] == " " + d.units
    ensures s[..|s| - |d.units| - 1] == if d.value.Some? then formatG(d.value.value) else "0"
  {
    var number := match d.value
      case None => "0"
      case Some(v) => formatG(v);
    ConcatParts(number, " " + d.units);
    number + (" " + d.units)
  }

  /** `IntData.String()`: the decimal value, or "0" when absent, then one
      space and the units. */
  function IntString(d: IntData): (s: string)
    ensures |d.units| + 1 <= |s|
    ensures s[|s| - |d.units| - 1..] == " " + d.units
  {
    var number := match d.value
      case None => "0"
      case Some(v) => DecimalString(v);
    ConcatParts(number, " " + d.units);
    number + (" " + d.units)
  }

  /** The rendering of an `IntData` reads back: the text before the first
      space is the value (zero when absent) and the rest is the units. */
  lemma IntStringReadsBack(d: IntData)
    ensures ParseDecimal(Split(IntString(d), ' ')[0]) == Some(d.value.GetOr(0))
    ensures IntString(d)[|DecimalString(d.value.GetOr(0))| + 1..] == d.units
  {
    var digits := DecimalString(d.value.GetOr(0));
    assert IntString(d) == digits + [' '] + d.units;
    assert ' ' !in digits by {
      forall k | 0 <= k < |digits|
        ensures digits[k] != ' '
      {
        if k > 0 || d.value.GetOr(0) >= 0 {
          assert digits[k] == (if d.value.GetOr(0) < 0 then digits[1..][k - 1] else digits[k]);
        }
      }
    }
    SplitAfterPiece(digits, ' ', d.units);
    DecimalRoundTrip(d.value.GetOr(0));
  }

  /** Absence and a present zero render identically, so callers must look
      at presence rather than at the rendering. */
  lemma AbsentRendersAsZero(units: string, formatG: real -> string)
    requires formatG(0.0) == "0"
    ensures IntString(IntData(None, units)) == IntString(IntData(Some(0), units))
    ensures FloatString(FloatData(None, units), formatG) == FloatString(FloatData(Some(0.0), units), formatG)
  {
  }

  /** Renderings of a present count, a negative count, an absent count,
      and an absent number with or without units. */
  lemma RenderingExamples(formatG: real -> string)
    ensures IntString(IntData(Some(13), "cm")) == "13 cm"
    ensures IntString(IntData(Some(-7), "")) == "-7 "
    ensures IntString(IntData(None, "cm")) == "0 cm"
    ensures FloatString(FloatData(None, "cm"), formatG) == "0 cm"
    ensures FloatString(FloatData(None, ""), formatG) == "0 "
  {
    assert NatDigits(1) == "1" && NatDigits(3) == "3" && NatDigits(7) == "7";
    assert NatDigits(13) == NatDigits(1) + "3";
    assert DecimalString(13) == "13" && DecimalString(-7) == "-7";
  }

  /** `StringData.String()`: the value, or "" when absent. */
  function StringString(d: StringData): (s: string)
    ensures d.value.Some? ==> s == d.value.value
    ensures d.value.None? ==> s == ""
  {
    d.value.GetOr("")
  }

  /** `TimeData.UnmarshalJSON`. `raw` is the `value` member decoded from the
      JSON object (or the decoder's error); `parse` is `time.Parse` with the
      RFC 3339 layout. A timestamp that does not parse is an error, never a
      silently absent value; on success the wrapper holds the parsed instant. */
  function DecodeTimeData(raw: Result<string, string>, parse: string -> Result<Time, string>): (r: Result<TimeData, Error>)
    ensures raw.Failure? ==> r == Failure(Decode(raw.error))
    ensures raw.Success? && parse(raw.value).Failure? ==> r == Failure(TimeParse(raw.value, parse(raw.value).error))
    ensures r.Success? <==> raw.Success? && parse(raw.value).Success?
    ensures r.Success? ==> r.value.value == parse(raw.value).value
  {
    match raw
    case Failure(err) => Failure(Decode(err))
    case Success(text) =>
      match parse(text)
      case Failure(err) => Failure(TimeParse(text, err))
      case Success(t) => Success(TimeData(t))
  }

  /** Decoding a timestamp that the RFC 3339 formatter wrote gives back the
      same instant, whenever parsing undoes formatting for it. */
  lemma TimeDataRoundTrip(t: Time, format: Time -> string, parse: string -> Result<Time, string>)
    requires parse(format(t)) == Success(t)
    ensures DecodeTimeData(Success(format(t)), parse) == Success(TimeData(t))
  {
  }

  /** The JSON key under which the response structs read each field, as the
      struct tags are written. */
  function ResponseKey(f: Field): string {
    match f
    case Temperature => "temp"
    case FeelsLike => "feels_like"
    case DewPoint => "dew_point"
    case Humidity => "humidity"
    case WindSpeed => "wind_speed"
    case WindDirection => "wind_direction"
    case WindGust => "wind_gust"
    case BarometricPressure => "baro_pressure"
    case Precipitation => "precipitation"
    case PrecipitationType => "precipitation_type"
    case PrecipitationProbability => "precipitation_probability"
    case PrecipitationAccumulation => "precipitation_accumulation"
    case Sunrise => "sunrise"
    case Sunset => "sunset"
    case Visibility => "visibility"
    case CloudCover => "cloud_cover"
    case CloudBase => "cloud_base"
    case CloudCeiling => "cloud_ceiling"
    case CloudSatellite => "cloud_satellite"
    case SurfaceShortwaveRadiation => "surface_shortwave_radiation"
    case MoonPhase => "moon_phase"
    case WeatherCode => "weather_code"
    case WeatherGroups => "weather_groups"
    case ParticleMatter25 => "pm25"
    case ParticleMatter10 => "pm10"
    case Ozone => "03"
    case NitrogenDioxide => "no2"
    case CarbonMonoxide => "co"
    case SulfurDioxide => "so2"
    case AirQualityIndexEPA => "epa_aqi"
    case PrimaryPollutantEPA => "epa_primary_pollutant"
    case HealthConcernEPA => "epa_health_concern"
    case AirQualityIndexChinaMEP => "china_aqi"
    case PrimaryPollutantChinaMEP => "china_primary_pollutant"
    case HealthConcertChinaMEP => "china_health_concern"
    case TreePollen => "pollen_tree"
    case WeedPollen => "pollen_weed"
    case GrassPollen => "pollen_grass"
    case RoadRiskScore => "road_risk_score"
    case RoadRisk => "road_risk"
    case RoadRiskConfidence => "road_risk_confidence"
    case RoadRiskConditions => "road_risk_conditions"
    case FireIndex => "fire_index"
    case HailBinary => "hail_binary"
  }

  /** The same keys with the ozone tag spelled as the field's wire name. */
  function ResponseKeyIntended(f: Field): string {
    if f == Ozone then "o3" else ResponseKey(f)
  }

  /** As written, two response keys differ from the wire names the fields
      are requested by: dew point (`dew_point`) and ozone (`03`, with a
      digit zero), so an `o3` member of a response is never read. */
  lemma ResponseKeyMismatches(f: Field)
    ensures ResponseKey(f) != WireName(f) <==> f == DewPoint || f == Ozone
    ensures ResponseKey(Ozone) == "03" && WireName(Ozone) == "o3"
  {
  }

  /** With the ozone tag corrected, every pollutant and every other field
      is read under the name it is requested by; dew point is the one
      remaining difference. */
  lemma ResponseKeyIntendedMatches(f: Field)
    ensures ResponseKeyIntended(f) == WireName(f) <==> f != DewPoint
    ensures ResponseKeyIntended(f) != ResponseKey(f) <==> f == Ozone
  {
    ResponseKeyMismatches(f);
  }
}

=== FILE: text.dfy ===
/** String helpers the client relies on from Go's standard library:
    `strings.Join`, its inverse `strings.Split` on a one-character separator,
    and the decimal rendering of integers (`%v` / `strconv.Itoa`). */
module Text {
  import opened Wrappers

  /** `strings.Join`: the parts in order, with `sep` between neighbours and
      nowhere else. */
  function Join(parts: seq<string>, sep: string): (r: string)
    ensures |parts| == 0 ==> r == ""
    ensures |parts| == 1 ==> r == parts[0]
    ensures |parts| > 0 ==> parts[0] <= r
    ensures |parts| > 0 ==> |parts[|parts| - 1]| <= |r| && r[|r| - |parts[|parts| - 1]|..] == parts[|parts| - 1]
    ensures |parts| > 1 ==> parts[0] + sep <= r
  {
    if |parts| == 0 then ""
    else if |parts| == 1 then parts[0]
    else
      var tail := Join(parts[1..], sep);
      assert parts[1..][|parts[1..]| - 1] == parts[|parts| - 1];
      parts[0] + sep + tail
  }

  /** Joining two nonempty lists is joining each and putting `sep` between
      them, for any separator: every pair of neighbours is separated by
      exactly `sep`. */
  lemma {:induction false} JoinAppend(a: seq<string>, b: seq<string>, sep: string)
    requires |a| > 0 && |b| > 0
    ensures Join(a + b, sep) == Join(a, sep) + sep + Join(b, sep)
    decreases |a|
  {
    assert (a + b)[0] == a[0];
    assert (a + b)[1..] == a[1..] + b;
    if |a| > 1 {
      JoinAppend(a[1..], b, sep);
    }
  }

  /** `strings.Split(s, string(c))`: the maximal runs between occurrences of
      `c`; always at least one piece, and no piece contains `c`. */
  function Split(s: string, c: char): (r: seq<string>)
    ensures |r| >= 1
    ensures forall i :: 0 <= i < |r| ==> c !in r[i]
    decreases |s|
  {
    if |s| == 0 then [""]
    else
      var rest := Split(s[1..], c);
      if s[0] == c then [""] + rest
      else [[s[0]] + rest[0]] + rest[1..]
  }

  /** A string free of the separator splits into itself alone. */
  lemma {:induction false} SplitWithoutSeparator(a: string, c: char)
    requires c !in a
    ensures Split(a, c) == [a]
    decreases |a|
  {
    if |a| > 0 {
      assert c !in a[1..];
      SplitWithoutSeparator(a[1..], c);
      assert [a[0]] + a[1..] == a;
    }
  }

  /** Splitting peels off a leading separator-free piece. */
  lemma {:induction false} SplitAfterPiece(a: string, c: char, t: string)
    requires c !in a
    ensures Split(a + [c] + t, c) == [a] + Split(t, c)
    decreases |a|
  {
    var s := a + [c] + t;
    if |a| == 0 {
      assert s[0] == c && s[1..] == t;
    } else {
      assert s[0] == a[0] && s[0] != c;
      assert s[1..] == a[1..] + [c] + t;
      assert c !in a[1..];
      SplitAfterPiece(a[1..], c, t);
      assert [a[0]] + a[1..] == a;
    }
  }

  /** A nonempty sequence is its head followed by its tail. */
  lemma HeadTail<T>(s: seq<T>)
    requires |s| > 0
    ensures [s[0]] + s[1..] == s
  {
  }

  /** A concatenation splits back into its two parts. */
  lemma ConcatParts(a: string, b: string)
    ensures (a + b)[..|a|] == a && (a + b)[|a|..] == b
  {
  }

  /** Join and Split are inverse when no part contains the separator:
      the joined text determines the parts, their order and their number. */
  lemma {:induction false} SplitJoin(parts: seq<string>, c: char)
    requires |parts| >= 1
    requires forall i :: 0 <= i < |parts| ==> c !in parts[i]
    ensures Split(Join(parts, [c]), c) == parts
    decreases |parts|
  {
    if |parts| == 1 {
      SplitWithoutSeparator(parts[0], c);
    } else {
      var tail := Join(parts[1..], [c]);
      assert Join(parts, [c]) == parts[0] + [c] + tail;
      assert forall i :: 0 <= i < |parts[1..]| ==> c !in parts[1..][i];
      SplitJoin(parts[1..], c);
      assert c !in parts[0];
      SplitAfterPiece(parts[0], c, tail);
      calc {
        Split(Join(parts, [c]), c);
        Split(parts[0] + [c] + tail, c);
        [parts[0]] + Split(tail, c);
        [parts[0]] + parts[1..];
        { HeadTail(parts); }
        parts;
      }
    }
  }

  /** The character of a decimal digit. */
  function DigitChar(d: nat): (ch: char)
    requires d < 10
    ensures '0' <= ch <= '9' && ch as int - '0' as int == d
  {
    ('0' as int + d) as char
  }

  predicate IsDigits(s: string) {
    forall i :: 0 <= i < |s| ==> '0' <= s[i] <= '9'
  }

  /** Decimal digits of a natural number, most significant first. */
  function NatDigits(n: nat): (s: string)
    ensures |s| >= 1 && IsDigits(s)
    ensures s[0] == '0' ==> n == 0
    decreases n
  {
    if n < 10 then [DigitChar(n)]
    else
      var high := NatDigits(n / 10);
      high + [DigitChar(n % 10)]
  }

  /** Go's `%v` rendering of an `int`: optional minus sign, then digits with
      no leading zero. */
  function DecimalString(n: int): (s: string)
    ensures |s| >= 1
    ensures n >= 0 ==> IsDigits(s)
    ensures n < 0 ==> s[0] == '-' && IsDigits(s[1..])
    ensures n > 0 ==> s[0] != '0'
    ensures n < 0 ==> |s| > 1 && s[1] != '0'
  {
    if n < 0 then "-" + NatDigits(-n) else NatDigits(n)
  }

  /** The value of a string of decimal digits. */
  function DigitsValue(s: string): nat
    requires IsDigits(s)
    decreases |s|
  {
    if |s| == 0 then 0
    else DigitsValue(s[..|s| - 1]) * 10 + (s[|s| - 1] as int - '0' as int)
  }

  /** Reads back an optionally signed decimal integer; `None` for anything else. */
  function ParseDecimal(s: string): Option<int> {
    if |s| > 1 && s[0] == '-' && IsDigits(s[1..]) then Some(0 - DigitsValue(s[1..]))
    else if |s| > 0 && IsDigits(s) then Some(DigitsValue(s))
    else None
  }

  lemma {:induction false} DigitsValueOfNatDigits(n: nat)
    ensures DigitsValue(NatDigits(n)) == n
    decreases n
  {
    if n >= 10 {
      DigitsValueOfNatDigits(n / 10);
      var s := NatDigits(n);
      assert s[..|s| - 1] == NatDigits(n / 10);
    }
  }

  /** The decimal rendering loses nothing: reading it back gives the number. */
  lemma DecimalRoundTrip(n: int)
    ensures ParseDecimal(DecimalString(n)) == Some(n)
  {
    if n < 0 {
      NegativeRoundTrip(n);
    } else {
      NonNegativeRoundTrip(n);
    }
  }

  /** A negative number's rendering is read by the signed branch. */
  lemma NegativeRoundTrip(n: int)
    requires n < 0
    ensures ParseDecimal("-" + NatDigits(-n)) == Some(n)
  {
    var digits := NatDigits(-n);
    DigitsValueOfNatDigits(-n);
    var s := "-" + digits;
    assert s[1..] == digits;
    assert |s| > 1 && s[0] == '-' && IsDigits(s[1..]);
    assert 0 - DigitsValue(digits) == n;
  }

  /** A non-negative number's rendering is read by the unsigned branch. */
  lemma NonNegativeRoundTrip(n: nat)
    ensures ParseDecimal(NatDigits(n)) == Some(n)
  {
    var s := NatDigits(n);
    DigitsValueOfNatDigits(n);
    assert '0' <= s[0] <= '9';
    assert !(|s| > 1 && s[0] == '-');
  }
}

=== FILE: times.dfy ===
/** Instants as Go's `time.Time` holds them, reduced to what the client
    observes: the instant itself and the zone offset it is shown in. */
module Times {

  /** Nanoseconds since the Unix epoch, and the zone offset in seconds. */
  datatype Time = Time(unixNanos: int, offsetSeconds: int)

  /** `t.After(u)`: `t` is a strictly later instant than `u`; the zone in
      which either is shown plays no part. */
  predicate After(t: Time, u: Time) {
    t.unixNanos > u.unixNanos
  }
}

=== FILE: units.dfy ===
/** The unit systems a response can be expressed in (units.go). */
module Units {

  /** `Si` and `Us`, the two `iota` constants of Go's `unit` type. */
  datatype Unit = Si | Us

  /** The Go lookup table `[...]string{"si", "us"}`. */
  const UnitValues: seq<string> := ["si", "us"]

  /** The `iota` value of a unit. */
  function Ordinal(u: Unit): (n: nat)
    ensures n < |UnitValues|
  {
    match u
    case Si => 0
    case Us => 1
  }

  /** `unit.String()`: the `unit_system` query value. */
  function WireName(u: Unit): (s: string)
    ensures s == UnitValues[Ordinal(u)]
  {
    match u
    case Si => "si"
    case Us => "us"
  }

  /** Both units render as the values the remote service expects, and the
      rendering tells the two apart. */
  lemma WireNames(u: Unit, v: Unit)
    ensures WireName(Si) == "si" && WireName(Us) == "us"
    ensures WireName(u) == WireName(v) <==> u == v
  {
  }
}

=== FILE: util.dfy ===
/** Coordinate checks, field-list joining and HTTP status classification
    (util.go). */
module Util {
  import opened Wrappers
  import opened Text
  import opened Fields
  import opened Errors

  /** The service covers latitudes from -59.9 to 59.9, both edges included.
      Go compares `float64` values; the model compares exact reals. */
  predicate ValidLatitude(latitude: real): (ok: bool)
    ensures ok <==> (if latitude < 0.0 then -latitude else latitude) <= 59.9
  {
    -59.9 <= latitude && latitude <= 59.9
  }

  /** Longitudes from -180 to 180, both edges included. */
  predicate ValidLongitude(longitude: real): (ok: bool)
    ensures ok <==> (if longitude < 0.0 then -longitude else longitude) <= 180.0
  {
    -180.0 <= longitude && longitude <= 180.0
  }

  /** The edges are inclusive; -59.91, 59.91 and ±90 are rejected as
      latitudes and ±180.01 as longitudes. */
  lemma CoordinateBounds()
    ensures ValidLatitude(-59.9) && ValidLatitude(59.9) && ValidLatitude(0.0)
    ensures !ValidLatitude(-59.91) && !ValidLatitude(59.91)
    ensures !ValidLatitude(90.0) && !ValidLatitude(-90.0)
    ensures ValidLongitude(-180.0) && ValidLongitude(180.0)
    ensures !ValidLongitude(-180.01) && !ValidLongitude(180.01)
  {
  }

  /** The wire names of a field list, element by element. */
  function WireNames(fields: seq<Field>): (names: seq<string>)
    ensures |names| == |fields|
    ensures forall i :: 0 <= i < |fields| ==> names[i] == WireName(fields[i])
  {
    seq(|fields|, i requires 0 <= i < |fields| => WireName(fields[i]))
  }

  /** `joinFields`: the fields' wire names in the caller's order with `sep`
      between neighbours, no separator before the first or after the last. */
  function JoinFields(fields: seq<Field>, sep: string): (r: string)
    ensures |fields| == 0 ==> r == ""
    ensures |fields| == 1 ==> r == WireName(fields[0])
    ensures |fields| > 0 ==> WireName(fields[0]) <= r
    ensures |fields| > 1 ==> WireName(fields[0]) + sep <= r
    ensures |fields| > 0 ==> |WireName(fields[|fields| - 1])| <= |r|
    ensures |fields| > 0 ==> r[|r| - |WireName(fields[|fields| - 1])|..] == WireName(fields[|fields| - 1])
  {
    Join(WireNames(fields), sep)
  }

  /** Joining two nonempty field lists is joining each with `sep` between
      them; this fixes every separator of the validation messages'
      `", "`-joined lists, not just the ends. */
  lemma JoinFieldsAppend(a: seq<Field>, b: seq<Field>, sep: string)
    requires |a| > 0 && |b| > 0
    ensures JoinFields(a + b, sep) == JoinFields(a, sep) + sep + JoinFields(b, sep)
  {
    assert WireNames(a + b) == WireNames(a) + WireNames(b);
    JoinAppend(WireNames(a), WireNames(b), sep);
  }

  /** The rendering of two fields with `", "`, the form of the validation
      messages. */
  lemma JoinFieldsExample()
    ensures JoinFields([Temperature, CloudCeiling], ", ") == "temp, cloud_ceiling"
  {
    var t, c := WireName(Temperature), WireName(CloudCeiling);
    assert t == "temp" && c == "cloud_ceiling";
    assert JoinFields([Temperature], ", ") == t;
    assert JoinFields([CloudCeiling], ", ") == c;
    assert [Temperature] + [CloudCeiling] == [Temperature, CloudCeiling];
    JoinFieldsAppend([Temperature], [CloudCeiling], ", ");
    assert JoinFields([Temperature, CloudCeiling], ", ") == t + ", " + c;
  }

  /** The comma-joined list is exactly what the service splits apart again:
      splitting it on commas gives the wire names in order. */
  lemma JoinFieldsSplits(fields: seq<Field>)
    requires |fields| > 0
    ensures Split(JoinFields(fields, ","), ',') == WireNames(fields)
  {
    var names := WireNames(fields);
    forall i | 0 <= i < |names|
      ensures ',' !in names[i]
    {
      WireNameNoComma(fields[i]);
    }
    SplitJoin(names, ',');
  }

  /** The `fields` query value determines the field list: its order, its
      duplicates and its length. */
  lemma JoinFieldsInjective(a: seq<Field>, b: seq<Field>)
    requires JoinFields(a, ",") == JoinFields(b, ",")
    ensures a == b
  {
    if |a| == 0 || |b| == 0 {
      // Wire names are nonempty, so only the empty list joins to "".
      assert |a| == 0 && |b| == 0;
    } else {
      JoinFieldsSplits(a);
      JoinFieldsSplits(b);
      var na, nb := WireNames(a), WireNames(b);
      assert na == nb;
      forall i | 0 <= i < |a|
        ensures a[i] == b[i]
      {
        assert WireName(a[i]) == na[i] == nb[i] == WireName(b[i]);
        WireNameInjective(a[i], b[i]);
      }
    }
  }

  /** Go's integer division, which truncates toward zero. */
  function GoDiv(a: int, b: int): (q: int)
    requires b > 0
    ensures a >= 0 ==> 0 <= a - q * b < b
    ensures a < 0 ==> -b < a - q * b <= 0
  {
    if a >= 0 then a / b else -((-a) / b)
  }

  /** Truncation differs from Dafny's Euclidean division on negative
      operands: -450 / 100 is -4 in Go and -5 here. */
  lemma GoDivTruncates()
    ensures GoDiv(-450, 100) == -4 && -450 / 100 == -5
    ensures GoDiv(450, 100) == 4 && 450 / 100 == 4
  {
  }

  /** `checkHTTPError`. `decoded` is what decoding the response body as
      `{"message": ...}` yields: the message, or the decoder's error. A 200
      response is never an error and its body is not consulted; otherwise a
      decoding failure is returned as is, before any classification. */
  function CheckHttpError(status: int, decoded: Result<string, string>, endpoint: string): (r: Option<Error>)
    ensures r.None? <==> status == 200
    ensures status != 200 && decoded.Failure? ==> r == Some(Decode(decoded.error))
    ensures status != 200 && decoded.Success? ==>
      && r.Some? && r.value.Http?
      && r.value.http.message == decoded.value
      && (r.value.http.kind == Generic <==> status !in {400, 401, 403, 404, 429, 500})
      && (r.value.http.kind != Generic ==> KindStatus(r.value.http.kind) == Some(status))
      && r.value.http.endpoint == (if r.value.http.kind == Generic then "" else endpoint)
  {
    if status == 200 then None
    else match decoded
      case Failure(err) => Some(Decode(err))
      case Success(message) =>
        // The `Endpoint` field is excluded from JSON, so the decoded error
        // carries an empty endpoint.
        var generic := HttpError(Generic, "", message);
        if GoDiv(status, 100) == 4 || GoDiv(status, 100) == 5 then
          if status == 400 then Some(Http(HttpError(BadRequest, endpoint, message)))
          else if status == 401 then Some(Http(HttpError(Unauthorized, endpoint, message)))
          else if status == 403 then Some(Http(HttpError(Forbidden, endpoint, message)))
          else if status == 404 then Some(Http(HttpError(NotFound, endpoint, message)))
          else if status == 429 then Some(Http(HttpError(TooManyRequests, endpoint, message)))
          else if status == 500 then Some(Http(HttpError(InternalServer, endpoint, message)))
          else Some(Http(generic))
        else Some(Http(generic))
  }

  /** The six classified statuses, spelled out, and a status outside them. */
  lemma ClassifiedStatuses(endpoint: string, message: string)
    ensures CheckHttpError(400, Success(message), endpoint) == Some(Http(HttpError(BadRequest, endpoint, message)))
    ensures CheckHttpError(401, Success(message), endpoint) == Some(Http(HttpError(Unauthorized, endpoint, message)))
    ensures CheckHttpError(403, Success(message), endpoint) == Some(Http(HttpError(Forbidden, endpoint, message)))
    ensures CheckHttpError(404, Success(message), endpoint) == Some(Http(HttpError(NotFound, endpoint, message)))
    ensures CheckHttpError(429, Success(message), endpoint) == Some(Http(HttpError(TooManyRequests, endpoint, message)))
    ensures CheckHttpError(500, Success(message), endpoint) == Some(Http(HttpError(InternalServer, endpoint, message)))
    ensures CheckHttpError(503, Success(message), endpoint) == Some(Http(HttpError(Generic, "", message)))
    ensures CheckHttpError(302, Success(message), endpoint) == Some(Http(HttpError(Generic, "", message)))
  {
  }
}

=== FILE: wrappers.dfy ===
/** Optional values and success/failure results, the Dafny stand-ins for Go's
    nil pointers and `(value, error)` return pairs. */
module Wrappers {

  /** A value that may be absent; Go's `*T` that may be nil. */
  datatype Option<+T> = None | Some(value: T) {

    /** The wrapped value, or `default` when absent. */
    function GetOr(default: T): T {
      match this
      case Some(v) => v
      case None => default
    }
  }

  /** The outcome of an operation that returns either a value or an error. */
  datatype Result<+R, +E> = Success(value: R) | Failure(error: E)
}
